=== FILE: README.md ===
# vbuz-webapp core, modelled in Dafny

vbuz-webapp is a Vue/Quasar single-page app for planning school-bus routes.
This project models the parts of it that hold logic worth stating, and proves
properties about them. Those parts are:

- **direct routing** (`src/services/DirectRoutingService.ts`): the route cache
  keyed by the ordered coordinates, the per-day counter of calls to the routing
  provider, and `calculateRoute`, which checks the cache, counts the call,
  asks the provider and stores its answer;
- **the session store** (`src/stores/auth.ts`): `user`, `token`, `loading` and
  the persisted `auth_token`, with `login`, `logout`, `clearAuth` and
  `fetchUser`;
- **the navigation guard** (`src/router/index.ts`): from a destination and the
  session to exactly one call of `next`;
- **the modal registry** (`src/services/ModalService.ts`) and **the modal
  component behaviour** (`src/mixin/ModalMixin.ts`);
- **the permission helpers** (`permissionUtils` in
  `src/services/api/permissions/PermissionApiService.ts`): code suggestion,
  validation, display formatting, grouping, search, a stable sort and
  statistics;
- **the auth composable** (`src/composables/useAuth.ts`): role checks, and the
  notices and navigation around login and logout;
- **the theme composable** (`src/composables/useTheme.js`): palettes, colour
  helpers and the persisted light/dark state;
- **the API client base** (`src/services/api/BaseApiService.ts`): the service
  constructor, URLs, the bearer-token interceptor, the 401 interceptor and the
  calls its verbs make.

Files:

- `values.dfy`: Option, Result, JSON values and JavaScript truthiness.
- `text.dfy`: decimal rendering, `parseInt`, `trim`, `split`/`join` and case mapping.
- `seqs.dfy`: facts about sequences.
- `storage.dfy`: `localStorage` as a class over a string map.
- One file per source file: `direct_routing.dfy`, `auth_store.dfy`,
  `router_guard.dfy`, `modal_service.dfy`, `modal_mixin.dfy`,
  `permission_utils.dfy`, `use_auth.dfy`, `use_theme.dfy`, `base_api.dfy`.

Code that updates state in place is modelled as classes whose methods
change fields and the storage map. Browser effects are logged in sequence
fields rather than performed: emitted events, calls on modal instances,
`Dark.set` calls and dispatched events. Inputs from outside are parameters:

- the current day;
- the provider's reply;
- the outcome of an `authService` call;
- whether `window` exists;
- the system colour preference;
- the JSON runtime (`Codec`: `stringify` and `parse`, with the round trip as a
  stated assumption).

## Model

| member | source | states |
|---|---|---|
| DirectRouting.RoundFixed6 | src/services/DirectRoutingService.ts:27 | `toFixed(6)` keeps the sign of a negative number and the magnitude in millionths, within half a millionth |
| DirectRouting.RenderFixed6 | src/services/DirectRoutingService.ts:27 | the printed coordinate has at least `0.000000`'s eight characters and never a `,` or `\|`, so keys can be split again |
| DirectRouting.PointTextsSeparable | src/services/DirectRoutingService.ts:27 | every point text is non-empty and free of `\|` |
| DirectRouting.RenderFixed6Injective | src/services/DirectRoutingService.ts:27 | two numbers print alike under `toFixed(6)` only when they round alike |
| DirectRouting.PointTexts | src/services/DirectRoutingService.ts:27 | one `lat,lng` text per point, in input order |
| DirectRouting.RouteKey | src/services/DirectRoutingService.ts:25-28 | the key is empty exactly for no points, and a single point's key is its own `lat,lng` text |
| DirectRouting.RouteKeySplits | src/services/DirectRoutingService.ts:25-28 | splitting a key at `\|` gives back the point texts, and each at `,` gives its two fixed-point coordinates |
| DirectRouting.RouteKeyEqualRoundsAlike | src/services/DirectRoutingService.ts:25-28 | equal keys come only from point lists that round alike |
| DirectRouting.PointTextInjective | src/services/DirectRoutingService.ts:27 | equal point texts mean both coordinates round alike |
| DirectRouting.RouteKeyEqualIff | src/services/DirectRoutingService.ts:25-28 | two point lists share a key exactly when they have the same length and round alike point by point |
| DirectRouting.RoundFixed6OnGrid | src/services/DirectRoutingService.ts:27 | on the micro-degree grid, two coordinates round alike exactly when they are equal |
| DirectRouting.RouteKeyOnGridIdentifies | src/services/DirectRoutingService.ts:25-28 | for coordinates on the micro-degree grid, equal keys mean equal point lists |
| DirectRouting.NegativeZeroHasItsOwnKey | src/services/DirectRoutingService.ts:27 | -0.0000001 prints as `-0.000000`, so it gets a different key from 0 although both round to zero |
| DirectRouting.GetRoute | src/services/DirectRoutingService.ts:30-41 | a missing, empty or unparsable `route_<key>` entry reads as no route, and a route read is the parse of the entry stored under the points' key; the call never fails |
| DirectRouting.SaveRoute | src/services/DirectRoutingService.ts:43-46 | only the `route_<key>` entry changes, and it holds the serialised data |
| DirectRouting.SaveThenGet | src/services/DirectRoutingService.ts:30-46 | after a save, every point list that rounds like the saved one reads the data back, and every other list reads what it read before |
| DirectRouting.GetRouteRespectsRounding | src/services/DirectRoutingService.ts:30-41 | point lists that round alike read the same cache entry |
| DirectRouting.CounterKeyIsNotCacheKey | src/services/DirectRoutingService.ts:52-55 | a counter entry never collides with a cached route |
| DirectRouting.CountApiCalls | src/services/DirectRoutingService.ts:51-65 | stores and returns one more than the day's stored count (a missing or empty value counts as 0); the warning fires exactly above 1800 |
| DirectRouting.FirstCallOfTheDay | src/services/DirectRoutingService.ts:53-54 | the first call of a day counts 1 |
| DirectRouting.CountingIncrements | src/services/DirectRoutingService.ts:53-55 | the stored count reads back, so a second call counts one more |
| DirectRouting.CountingIsLocal | src/services/DirectRoutingService.ts:55 | counting leaves every other storage entry, including other days' counters, as it was |
| DirectRouting.LngLatPairs | src/services/DirectRoutingService.ts:86 | the request body holds `[lng, lat]` per point, in input order |
| DirectRouting.CalculateRoute | src/services/DirectRoutingService.ts:70-123 | result, request sent and storage afterwards are those of the ordered specification `RunCalculateRoute` |
| DirectRouting.RunCalculateRoute | src/services/DirectRoutingService.ts:70-123 | a request is sent exactly for two or more points without a truthy cached route; a success after a request means an ok reply with that body; no storage entry other than the day's counter and the points' route changes |
| DirectRouting.TooFewPointsFailsFirst | src/services/DirectRoutingService.ts:74-76 | fewer than two points fail before any cache read, count or request |
| DirectRouting.CacheHitHasNoEffects | src/services/DirectRoutingService.ts:79-83 | a truthy cached value is returned with no request and no storage change |
| DirectRouting.MissCountsOnce | src/services/DirectRoutingService.ts:86-106 | on a miss the counter rises by exactly one and the request carries the `[lng, lat]` pairs; a failed request changes nothing else |
| DirectRouting.SuccessIsCached | src/services/DirectRoutingService.ts:108-118 | an ok reply is returned and cached, and a truthy answer makes the next call with the same points a cache hit |
| AuthStore.Store.constructor | src/stores/auth.ts:5-9 | `token` is what `auth_token` holds, `user` is null, `loading` is false |
| AuthStore.Store.UserRole | src/stores/auth.ts:13 | the user's role when it is a non-empty string, otherwise null |
| AuthStore.Store.IsAuthenticated | src/stores/auth.ts:12 | authenticated exactly with a user and a non-empty token; an empty token is logged out |
| AuthStore.Store.ClearAuth | src/stores/auth.ts:49-53 | user and token become null and `auth_token` is removed; nothing else in storage changes |
| AuthStore.ClearAuthTwice | src/stores/auth.ts:49-53 | `clearAuth` is idempotent |
| AuthStore.Store.Login | src/stores/auth.ts:17-35 | success sets token and user and persists the token; failure leaves the cleared state and returns the same error; `loading` is true while awaiting and false afterwards |
| AuthStore.LoginSurvivesReload | src/stores/auth.ts:7 | a store created after a login reads the persisted token |
| AuthStore.Store.Logout | src/stores/auth.ts:37-47 | the service is called exactly when a token is held; the store always ends cleared |
| AuthStore.Store.FetchUser | src/stores/auth.ts:55-64 | without a token nothing happens; success sets the user; failure clears the session without rethrowing |
| RouterGuard.RequiredRoles | src/router/index.ts:59-61 | a role is required exactly when some matched record lists it |
| RouterGuard.RequiresAuth | src/router/index.ts:29 | a record without `requiresAuth` or with `requiresAuth: true` protects the page; a page whose matched records (possibly none) all set it to false is public |
| RouterGuard.Decide | src/router/index.ts:42-75 | an authenticated user on an `/auth` page is sent to `/dashboard` without the notice; the notice goes only to an authenticated user, who is sent to `/dashboard`; only an anonymous visitor of a protected page is sent to the login page, never with `/` as return target; a public page outside `/auth` always proceeds |
| RouterGuard.DecideProceedsIff | src/router/index.ts:42-75 | navigation proceeds exactly when no check objects |
| RouterGuard.NoticeIffRoleDenied | src/router/index.ts:58-71 | the notice is shown exactly when an authenticated user outside `/auth` lacks every required role of a protected page |
| RouterGuard.AnonymousProtectedGoesToLogin | src/router/index.ts:47-55 | without a session a protected page leads to the login page, with the full path (or `/dashboard` for `/`) as the return target |
| RouterGuard.AdminPageRefusesUser | src/router/index.ts:58-71 | a page requiring `admin` refuses role `user` with the notice |
| RouterGuard.BeforeEach | src/router/index.ts:25-76 | an uninitialised store whose `initAuth` throws is cleared, otherwise the session is untouched; the decision is taken on the session afterwards |
| RouterGuard.ShippedBeforeEach | src/router/index.ts:31-39 | against the store as it is, every navigation clears the session and is decided as anonymous |
| RouterGuard.LoggedInUserIsSentToLogin | src/router/index.ts:31-55 | as shipped, opening the dashboard after logging in leads to the login page |
| RouterGuard.SessionReachesUnrestrictedPages | src/router/index.ts:42-75 | an authenticated session reaches every page outside `/auth` that requires no roles |
| RouterGuard.InitializedGuardKeepsSession | src/router/index.ts:25-76 | with an initialised store a logged-in user reaches the dashboard and stays logged in |
| RouterGuard.LoginPageRequiresSession | src/router/routes.ts:17-24 | no record sets `requiresAuth: false`, so an anonymous visit to the login page is redirected to the login page |
| RouterGuard.PublicLoginPageProceeds | src/router/index.ts:42-55 | with public `/auth` records, anonymous visitors reach the login page and authenticated ones go to `/dashboard` |
| ModalService.ModalService.RegisterModal | src/services/ModalService.ts:11-13 | maps the id to the instance, replacing any earlier one; the open ids are unchanged |
| ModalService.ModalService.constructor | src/services/ModalService.ts:7-9 | a registry with no modals and none open |
| ModalService.ModalService.UnregisterModal | src/services/ModalService.ts:15-18 | forgets the instance and removes the id from the open ids, keeping the others in order |
| ModalService.ModalService.OpenModal | src/services/ModalService.ts:20-31 | a registered id is opened with the data and appended once; an unknown id returns false and changes nothing; the registry invariant is kept |
| ModalService.ModalService.CloseModal | src/services/ModalService.ts:33-42 | a registered id is closed and removed from the open ids; an unknown id returns false and changes nothing |
| ModalService.ModalService.CloseAllModals | src/services/ModalService.ts:44-47 | every registered instance is closed exactly once and no modal stays open; the registry is unchanged |
| ModalService.ModalService.GetActiveModals | src/services/ModalService.ts:49-55 | the open-id list itself, without duplicates, all registered, and exactly those `isModalActive` accepts |
| ModalService.ModalService.IsModalActive | src/services/ModalService.ts:49-51 | in a consistent registry, only a registered id can be active |
| ModalService.OpenTwiceThenAnother | src/services/ModalService.ts:24-26 | opening an open modal again does not duplicate it; opening order is kept |
| Seqs.Without | src/services/ModalService.ts:17 | filtering out one id keeps every other element, in order, and keeps the list free of duplicates |
| ModalMixin.ModalComponent.ShowEvents | src/mixin/ModalMixin.ts:38-45 | writing `show` emits the new value, then opened or closed with the modal's id |
| ModalMixin.ModalComponent.Show | src/mixin/ModalMixin.ts:35-37 | reading `show` gives the `modelValue` prop; writing it (`SetShow`) leaves it as it was |
| ModalMixin.ModalComponent.constructor | src/mixin/ModalMixin.ts:7-32 | the props as passed, `isSaving` false, `initialData` null and nothing emitted |
| ModalMixin.ModalComponent.SetShow | src/mixin/ModalMixin.ts:38-45 | a write of `show` emits its two events and changes no prop, so `show` reads as before |
| ModalMixin.ModalComponent.Open | src/mixin/ModalMixin.ts:49-52 | keeps the data, then emits `update:modelValue(true)` and `modal:opened` |
| ModalMixin.ModalComponent.Close | src/mixin/ModalMixin.ts:53-63 | refused with no effect while persistent and loading; otherwise emits beforeClose, update(false) and closed, and resets the data unless asked to keep it |
| ModalMixin.ModalComponent.StartLoading | src/mixin/ModalMixin.ts:64-66 | sets `isSaving` and nothing else |
| ModalMixin.ModalComponent.StopLoading | src/mixin/ModalMixin.ts:67-69 | clears `isSaving` and nothing else |
| ModalMixin.ModalComponent.ResetData | src/mixin/ModalMixin.ts:71-74 | `isSaving` false and `initialData` null |
| ModalMixin.ModalComponent.Cancel | src/mixin/ModalMixin.ts:75-77 | the same as `close()` without keeping the data |
| ModalMixin.ModalComponent.ModelValueChanged | src/mixin/ModalMixin.ts:80-86 | neither branch of the watcher fires: the prop changes and nothing is emitted |
| ModalMixin.ModalComponent.Mounted | src/mixin/ModalMixin.ts:88-91 | registers the component under its id |
| ModalMixin.ModalComponent.BeforeUnmount | src/mixin/ModalMixin.ts:92-95 | unregisters the id and leaves it closed |
| ModalMixin.SavingDoesNotBlockClose | src/mixin/ModalMixin.ts:53-69 | `isSaving` does not stop a persistent modal from closing; only the `loading` prop does |
| PermissionUtils.FoldAccents | src/services/api/permissions/PermissionApiService.ts:400-405 | each accented capital is replaced by its base letter, character by character |
| PermissionUtils.KeepCodeChars | src/services/api/permissions/PermissionApiService.ts:406 | an order-preserving sub-list of the input holding each capital, digit and white-space character as often as the input does, and nothing else |
| PermissionUtils.CollapseSpaces | src/services/api/permissions/PermissionApiService.ts:407 | each run of white space becomes one `_`, so no `__` appears |
| PermissionUtils.CollapseSpacesByChar | src/services/api/permissions/PermissionApiService.ts:407 | the replacement equals the character-at-a-time reading: white space that starts a run becomes `_`, white space that continues one disappears, every other character stays |
| PermissionUtils.GenerateCodeFromName | src/services/api/permissions/PermissionApiService.ts:395-409 | an absent or empty name gives `''`; every code has at most 20 characters, only A-Z, 0-9 and `_`, and never `__` |
| PermissionUtils.DefaultColorsAreValid | src/services/api/permissions/PermissionApiService.ts:357-361 | every default colour passes `isValidColor` |
| PermissionUtils.IsValidColor | src/services/api/permissions/PermissionApiService.ts:416-418 | exactly `#` followed by six characters that each read as a base-16 digit (either case) |
| PermissionUtils.ValidateCode | src/services/api/permissions/PermissionApiService.ts:425-446 | a missing or empty code gives exactly the required-error; `valid` holds exactly when there are no errors, that is for 2 to 50 characters from A-Z, 0-9 and `_` |
| PermissionUtils.CodeErrors | src/services/api/permissions/PermissionApiService.ts:425-446 | a missing or empty code gives only the required-error; no errors exactly for 2 to 50 characters from A-Z, 0-9 and `_`; never more than two errors |
| PermissionUtils.GeneratedCodeIsValid | src/services/api/permissions/PermissionApiService.ts:395-446 | a suggested code of at least two characters passes validation |
| PermissionUtils.FormatPermissionForDisplay | src/services/api/permissions/PermissionApiService.ts:453-463 | keeps the record; icon, name and code fall back to `card_membership`, `Sem nome` and `SEM_CODIGO` when absent or empty; active unless `is_active` is false |
| PermissionUtils.OrDefault | src/services/api/permissions/PermissionApiService.ts:457-459 | a non-empty field is kept, an absent or empty one replaced by the fallback |
| PermissionUtils.FormatAll | src/services/api/permissions/PermissionApiService.ts:483 | formats each permission, in order |
| PermissionUtils.Members | src/services/api/permissions/PermissionApiService.ts:470-486 | a group's permissions are those with its key, in input order |
| PermissionUtils.GroupPermissionsByInstitution | src/services/api/permissions/PermissionApiService.ts:470-486 | one group per key present, holding its members formatted in input order with the first member's institution |
| PermissionUtils.GroupsPartition | src/services/api/permissions/PermissionApiService.ts:472 | each permission is in exactly one group |
| PermissionUtils.GroupSizesSum | src/services/api/permissions/PermissionApiService.ts:470-486 | group sizes sum to the input length |
| PermissionUtils.Matching | src/services/api/permissions/PermissionApiService.ts:501-508 | keeps exactly the matching permissions, each as often as in the input, as an order-preserving sub-list |
| PermissionUtils.FilterPermissions | src/services/api/permissions/PermissionApiService.ts:494-509 | the result is an order-preserving sub-list of the input and never holds a permission more often than the input |
| PermissionUtils.FilterPermissionsSpec | src/services/api/permissions/PermissionApiService.ts:494-509 | an empty or blank term returns the input; otherwise an order-preserving sub-list holding, each as often as the input does, exactly the permissions whose name, code, description or institution name contains the trimmed lower-cased term |
| PermissionUtils.MatchingIdempotent | src/services/api/permissions/PermissionApiService.ts:501-508 | keeping the matches of the matches changes nothing |
| PermissionUtils.FilterPermissionsIdempotent | src/services/api/permissions/PermissionApiService.ts:494-509 | filtering twice with the same term changes nothing more |
| PermissionUtils.LessTransitive | src/services/api/permissions/PermissionApiService.ts:544-549 | the comparison of sort values is transitive (with LessIrreflexive and LessTotal, a strict total order) |
| PermissionUtils.LessTotal | src/services/api/permissions/PermissionApiService.ts:544-549 | any two distinct sort values are ordered one way or the other |
| PermissionUtils.LexLessTotal | src/services/api/permissions/PermissionApiService.ts:544-549 | string `<` orders any two distinct strings |
| PermissionUtils.InsertSorted | src/services/api/permissions/PermissionApiService.ts:519-551 | inserting into a sorted list keeps it sorted |
| PermissionUtils.Insert | src/services/api/permissions/PermissionApiService.ts:544-550 | insertion adds exactly the new element to the multiset |
| PermissionUtils.Sort | src/services/api/permissions/PermissionApiService.ts:544-551 | the sort keeps the multiset of permissions |
| PermissionUtils.InsertTies | src/services/api/permissions/PermissionApiService.ts:519-551 | insertion puts the new element after its equals |
| PermissionUtils.SortCorrect | src/services/api/permissions/PermissionApiService.ts:519-551 | the sort is a permutation, ordered, and stable |
| PermissionUtils.SortPermissionsSpec | src/services/api/permissions/PermissionApiService.ts:518-552 | a permutation of the input, ordered ascending for `'asc'` and descending otherwise, with equal keys in input order |
| PermissionUtils.SortPermissions | src/services/api/permissions/PermissionApiService.ts:518-552 | the result is a permutation of the input |
| PermissionUtils.CountWhere | src/services/api/permissions/PermissionApiService.ts:561-564 | a count between 0 and the length, reaching each bound when all or none qualify |
| PermissionUtils.Percentage | src/services/api/permissions/PermissionApiService.ts:572-573 | 0 for an empty list; otherwise within 0..100 and nearest to 100·part/total |
| PermissionUtils.CalculatePermissionStats | src/services/api/permissions/PermissionApiService.ts:559-575 | `total` is the length and `active + inactive = total`; a missing `is_active` counts as active; percentages 0 for an empty list and within 0..100 |
| UseAuth.CanAccessIff | src/composables/useAuth.ts:75-79 | access exactly for an authenticated user who faces no roles or holds one of them |
| UseAuth.HasRole | src/composables/useAuth.ts:19-21 | a role is held exactly when it is the logged-in user's own non-empty role |
| UseAuth.HasAnyRole | src/composables/useAuth.ts:24-26 | one of the roles is held exactly when some listed role passes `hasRole` |
| UseAuth.CanAccess | src/composables/useAuth.ts:75-79 | access requires a session, and a session suffices when no roles are required |
| UseAuth.NoRoleHasNoRoles | src/composables/useAuth.ts:19-26 | a user without a role holds no role |
| UseAuth.FailureMessage | src/composables/useAuth.ts:45 | the server's message when present, else `Erro ao fazer login` |
| UseAuth.Login | src/composables/useAuth.ts:29-55 | success greets the user and navigates to the redirect or `/dashboard`; failure shows the message, does not navigate and returns the same error; a login that resolves without a user fails with the TypeError and the default message |
| UseAuth.Logout | src/composables/useAuth.ts:58-72 | never fails: info notice, navigation to `/auth/login`, session cleared |
| UseTheme.Palette | src/composables/useTheme.js:136-138 | the dark palette exactly in dark mode, the light one otherwise |
| UseTheme.Theme.constructor | src/composables/useTheme.js:6-7 | light mode, not initialised, nothing applied, announced or watched |
| UseTheme.Theme.CurrentColors | src/composables/useTheme.js:136-138 | the dark palette exactly in dark mode, the light one otherwise |
| UseTheme.PalettesAreValid | src/composables/useTheme.js:10-76 | every palette colour is a `#rrggbb` colour |
| UseTheme.GetCSSColor | src/composables/useTheme.js:141-143 | `var(--q-` + name + `)`, from which the name can be read back |
| UseTheme.Substr | src/composables/useTheme.js:153-155 | `substr` yields the characters from the start position, at most the given number |
| UseTheme.RemoveFirst | src/composables/useTheme.js:152 | `replace('#', '')` removes exactly the first `#`, keeping everything around it, and changes nothing when there is none |
| UseTheme.ParseHexPair | src/composables/useTheme.js:153-155 | `parseInt` in base 16 reads two hex digits as their value |
| UseTheme.IsColorLight | src/composables/useTheme.js:151-158 | a colour with at most four characters after the `#` has no blue field and is never light |
| UseTheme.IsColorLightIff | src/composables/useTheme.js:151-158 | for `#rrggbb`, light exactly when 299r + 587g + 114b > 155000 |
| UseTheme.UnreadableColorIsDark | src/composables/useTheme.js:151-158 | a colour whose red field is not a number is never light |
| UseTheme.Theme.GetThemeColor | src/composables/useTheme.js:146-148 | a colour of the current palette, or `#000000` for an unknown name |
| UseTheme.ThemeColorIsValid | src/composables/useTheme.js:146-148 | a palette name gives its palette colour, and every answer is a `#rrggbb` colour |
| UseTheme.Theme.GetContrastColor | src/composables/useTheme.js:161-163 | the current palette's `primaryText`, whatever the background |
| UseTheme.IntendedContrastColor | src/composables/useTheme.js:161-163 | the corrected contrast colour is always one of the two text colours |
| UseTheme.Theme.ThemeName | src/composables/useTheme.js:215 | `dark` exactly in dark mode, `light` otherwise |
| UseTheme.Theme.InitializeTheme | src/composables/useTheme.js:80-101 | a stored value decides the mode (dark exactly for `dark`), else the system preference; an error forces light mode without marking the theme initialised |
| UseTheme.Theme.ToggleTheme | src/composables/useTheme.js:104-122 | flips the mode, applies it, stores `dark` or `light` to match, and announces the change when a window exists |
| UseTheme.ToggleTwice | src/composables/useTheme.js:104-122 | two toggles restore the mode |
| UseTheme.Theme.SetTheme | src/composables/useTheme.js:125-133 | dark exactly for `dark`; the argument is stored verbatim |
| UseTheme.ChoiceSurvivesReload | src/composables/useTheme.js:84-90 | a chosen theme is restored on the next start, whatever the system prefers |
| UseTheme.Theme.OnSystemChange | src/composables/useTheme.js:171-177 | follows the system only while no truthy preference is stored |
| UseTheme.EmptyPreferenceFollowsSystem | src/composables/useTheme.js:84-90 | an empty stored preference starts light, yet the system listener may still switch to dark |
| UseTheme.Theme.Mounted | src/composables/useTheme.js:190-195 | when not yet initialised: initialises as `initializeTheme` does (stored or system mode, light and uninitialised after a throw, nothing without a window) and adds one listener when a window exists and `matchMedia` does not throw; when initialised, changes nothing |
| UseTheme.Theme.WatchSystemTheme | src/composables/useTheme.js:166-187 | one system listener more when a window exists and `matchMedia` works; none without a window or when it is missing or throws |
| UseTheme.WhiteOnWhiteInDarkMode | src/composables/useTheme.js:161-163 | in dark mode a white background gets white text |
| UseTheme.IntendedContrastOpposes | src/composables/useTheme.js:151-163 | the corrected contrast colour is light exactly when the background is not |
| BaseApi.NewService | src/services/api/BaseApiService.ts:11-41 | refuses an empty resource name; a `baseURL` option replaces the environment's, and header options replace defaults of the same name |
| BaseApi.GetUrl | src/services/api/BaseApiService.ts:83-85 | `/resource`, followed by `/endpoint` when the endpoint is not empty |
| BaseApi.EndpointOfGetUrl | src/services/api/BaseApiService.ts:83-85 | the endpoint can be read back from the URL, `..` segments included |
| BaseApi.GetUrlEndpointOf | src/services/api/BaseApiService.ts:83-85 | every URL of the resource's form is the URL of the endpoint read from it |
| BaseApi.GetUrlInjective | src/services/api/BaseApiService.ts:83-85 | distinct endpoints give distinct URLs |
| BaseApi.AuthorizeRequest | src/services/api/BaseApiService.ts:49-55 | a non-empty token is sent as `Bearer <token>`; otherwise the request is untouched |
| BaseApi.InterceptRequest | src/services/api/BaseApiService.ts:49-55 | only the `Authorization` header can change, and it is present exactly when it was or a token is stored |
| BaseApi.InterceptResponse | src/services/api/BaseApiService.ts:58-75 | every outcome passes unchanged; a 401 error also removes `auth_token` and nothing else |
| BaseApi.UnauthorizedDropsBearer | src/services/api/BaseApiService.ts:49-75 | after a 401 the next request carries no bearer token of its own |
| BaseApi.GetCall | src/services/api/BaseApiService.ts:93-95 | a GET of the endpoint's URL with the parameters and no body |
| BaseApi.SendCall | src/services/api/BaseApiService.ts:103-125 | POST, PUT or PATCH of the endpoint's URL with the data as body and no parameters |
| BaseApi.DeleteCall | src/services/api/BaseApiService.ts:132-134 | a DELETE of the endpoint's URL with neither parameters nor body |
| BaseApi.RawRequest | src/services/api/BaseApiService.ts:144-151 | method, URL and data, each replaced by a `config` key of the same name |

## Left out

- `GeocodingService`, `RoutePointService`, `addRouteToMap`/`removeRouteFromMap` and the boot files: network, timers, Leaflet and framework wiring.
- The `PermissionApiService` class methods and the other HTTP wrapper classes: they only forward to axios. Their one piece of logic, the URL, is `BaseApi.GetUrl`.
- I/O, clocks and foreign code are parameters or logs:
  - `fetch`, `authService` and axios: their outcomes are inputs;
  - `new Date()`: the day is an input;
  - `JSON.parse`/`JSON.stringify`: a codec parameter;
  - `console`, `Notify`, `window.dispatchEvent` and `Dark.set`: logged;
  - `matchMedia`: its answer and whether it throws are inputs.
- Await interleavings: concurrent navigations or overlapping store actions are not modelled.
- `localStorage` exceptions (quota, disabled storage) are not modelled, except in `initializeTheme`, where a throw is an input.
- `DirectRouting.RunCalculateRoute`: a non-ok reply is reported as `ProviderError` with its whole body, where the source throws an `Error` whose message is built from the body's `error` field; a non-ok reply whose body is `null` makes the source throw a TypeError instead.
- `DirectRouting.RoundFixed6`: coordinates are exact reals, not doubles, and `toFixed` on magnitudes of 1e21 or more (exponent notation) is not modelled.
- `Text.ParseInt`: counts are unbounded integers, so precision loss past 2^53 is not modelled.
- `Text.ToUpper` and `Text.ToLower` cover ASCII, Latin-1 and the code points listed in `text.dfy`. Other Unicode case mappings and UTF-16 code units (string length and `<` on astral characters) are not modelled.
- `ModalService.ModalService.CloseAllModals`: the enumeration order of `Object.values` is a ghost output. Prototype keys such as `__proto__` are not modelled.
- `ModalService.ModalService.OpenModal` and `ModalService.ModalService.CloseModal`: the registry is a plain object, so an unregistered id naming an inherited property (`constructor`, `toString`) passes the `if (modal)` check and the call throws a TypeError; here such an id is unknown and the call returns false.
- `PermissionUtils.FormatPermissionForDisplay`: the random `color` and the date-dependent `isExpired` are not modelled.
- `PermissionUtils.SortPermissionsSpec`: the `created_at` key compares dates and is not modelled. Neither is the fallback for other keys, which compares arbitrary fields.
- `PermissionUtils.CalculatePermissionStats`: the percentages are stated only as bounds. `Percentage` rounds the exact quotient half up. The source rounds a float quotient, so at an exact half (29 of 200) it may give 14 where `Percentage` gives 15.
- `PermissionUtils.FilterPermissions`: a field of a type other than string raises a TypeError in the source; fields are strings here.
- `UseAuth.Login`: destructuring a null `data` throws in the store; a reply always carries `data` here.
- `AuthStore.Store.Login`: the reply's `token` is always a string here. A reply without `token` makes the store hold `undefined` and `localStorage` store the text `"undefined"` (src/stores/auth.ts:22-27).
- `PermissionUtils.GroupPermissionsByInstitution`: the groups are a map, so the key order of the returned object (integer ids ascending, then `without_institution`) is not modelled.
- Default arguments: the model's parameters are always given, and each default is the model's behaviour for that argument. The source's defaults are:
  - `profile = 'driving-car'` in `calculateRoute`;
  - `initialData = null` in `openModal` and `open`;
  - `withPersistData = false` in `close`;
  - `sortBy = 'name'` and `sortOrder = 'asc'` in `sortPermissions`;
  - `options = {}` in the `BaseApiService` constructor;
  - `endpoint = ''` in `getUrl`, `get`, `post`, `put`, `patch` and `delete`;
  - `params = {}` in `get`;
  - `data = {}` in `post`, `put`, `patch` and `request`;
  - `config = {}` in `request`.
- `ModalMixin.ModalComponent.constructor`: the `modalId` prop is always passed. Its default, `modal-${Date.now()}` (src/mixin/ModalMixin.ts:20-25), reads the clock and is not modelled.
- `UseTheme.Theme.GetThemeColor` and `UseTheme.ThemeColorIsValid`: the palettes are plain objects, so a name of an inherited property (`constructor`, `toString`, `valueOf`, `__proto__`) yields that function or object in the source. Here every name outside the palette gives `#000000`, so "every answer is a `#rrggbb` colour" holds only for names that are not inherited properties.
- `RouterGuard.BeforeEach`: the store defines neither `initialized` nor `initAuth`, so both are inputs. A returning `initAuth` is assumed not to touch the session.
- `UseTheme.Theme.ToggleTheme` and `UseTheme.Theme.SetTheme`: a throwing `setItem` is not modelled.
- The guard reads `initialized` and calls `initAuth`, neither of which the store defines; institution selection is not implemented in the store either.

## Findings

| source | as written | input that shows it | evidently intended | confidence | as-written member | corrected member |
|---|---|---|---|---|---|---|
| src/router/index.ts:31-39 | the store has no `initialized` and no `initAuth`, so every navigation calls a missing function, catches the TypeError and clears the session | log in, then open `/dashboard` | a logged-in session survives navigation | not executed; high | RouterGuard.ShippedBeforeEach, RouterGuard.LoggedInUserIsSentToLogin | RouterGuard.BeforeEach, RouterGuard.InitializedGuardKeepsSession |
| src/router/routes.ts:17-24 | no record sets `requiresAuth: false`, so the login page itself requires a session | an anonymous visit to `/auth/login` | the `/auth` pages are public | not executed; high | RouterGuard.LoginPageRequiresSession | RouterGuard.PublicLoginPageProceeds |
| src/composables/useTheme.js:161-163 | both branches of `getContrastColor` return the current `primaryText` | dark mode, background `#ffffff`: the text is `#ffffff` | dark text on light backgrounds, light text on dark ones | not executed; medium | UseTheme.WhiteOnWhiteInDarkMode | UseTheme.IntendedContrastOpposes |

=== FILE: auth_store.dfy ===
/** The session store (src/stores/auth.ts): `user`, `token` and `loading`,
    the persisted `auth_token`, the two getters and the actions `login`,
    `logout`, `clearAuth` and `fetchUser`. The calls to the authentication
    API are inputs: each either resolves with its data or rejects. */
module AuthStore {
  import opened Values
  import opened Storage

  /** The user profile the API returns. */
  datatype User = User(id: int, name: string, role: Option<string>)

  /** A rejected API call: `error.response?.status` and
      `error.response?.data?.message`. */
  datatype ApiError = ApiError(status: Option<int>, message: Option<string>)

  /** The outcome of one awaited call to the authentication API. */
  datatype Call<T> = Resolves(data: T) | Rejects(error: ApiError)

  /** The `data` of a successful login: `{ token, user }`. */
  datatype LoginData = LoginData(token: string, user: Option<User>)

  const TOKEN_KEY := "auth_token"

  class Store {
    var user: Option<User>
    var token: Option<string>
    var loading: bool
    const storage: LocalStorage

    /** The initial state: the token is whatever `auth_token` holds. */
    constructor (storage: LocalStorage)
      ensures this.storage == storage
      ensures user == None && token == storage.GetItem(TOKEN_KEY) && !loading
      ensures Synced()
    {
      this.storage := storage;
      user := None;
      token := storage.GetItem(TOKEN_KEY);
      loading := false;
    }

    /** `isAuthenticated`: a truthy token and a user. */
    function IsAuthenticated(): (r: bool)
      reads this
      ensures r ==> user.Some? && token.Some? && token.value != ""
      ensures token == Some("") ==> !r
      ensures user.Some? && TruthyText(token) ==> r
    {
      TruthyText(token) && user.Some?
    }

    /** `userRole`: `user.role`, or None when there is no user or the role
        is missing or empty. */
    function UserRole(): (r: Option<string>)
      reads this
      ensures r.Some? ==> user.Some? && user.value.role == r && r.value != ""
      ensures r.None? ==> user.None? || user.value.role.None? || user.value.role == Some("")
    {
      if user.Some? && user.value.role.Some? && user.value.role.value != "" then user.value.role else None
    }

    /** The token field agrees with the persisted `auth_token`. */
    ghost predicate Synced()
      reads this, storage
    {
      token == storage.GetItem(TOKEN_KEY)
    }

    /** The state `clearAuth` leaves behind. */
    ghost predicate Cleared()
      reads this, storage
    {
      user == None && token == None && TOKEN_KEY !in storage.items
    }

    /** `clearAuth()`. */
    method ClearAuth()
      modifies this`user, this`token, storage
      ensures Cleared() && Synced() && !IsAuthenticated()
      ensures storage.items == old(storage.items) - {TOKEN_KEY}
    {
      user := None;
      token := None;
      storage.RemoveItem(TOKEN_KEY);
    }

    /** `login(credentials)`: on success the response's token and user are
        stored, the token persisted and the user returned; on failure the
        session is cleared and the same error is thrown. `loading` is true
        while the call is awaited (`loadingWhileAwaiting`) and false after. */
    method Login(call: Call<LoginData>) returns (r: Result<Option<User>, ApiError>, loadingWhileAwaiting: bool)
      modifies this, storage
      ensures loadingWhileAwaiting && !loading
      ensures call.Resolves? ==>
        && r == Success(call.data.user)
        && token == Some(call.data.token) && user == call.data.user
        && storage.items == old(storage.items)[TOKEN_KEY := call.data.token]
      ensures call.Rejects? ==>
        && r == Failure(call.error)
        && Cleared()
        && storage.items == old(storage.items) - {TOKEN_KEY}
      ensures Synced()
    {
      loading := true;
      loadingWhileAwaiting := loading;
      match call {
        case Resolves(data) =>
          token := Some(data.token);
          user := data.user;
          storage.SetItem(TOKEN_KEY, data.token);
          r := Success(data.user);
        case Rejects(error) =>
          ClearAuth();
          r := Failure(error);
      }
      loading := false;
    }

    /** `logout()`: the API is called only when there is a truthy token; its
        error is swallowed; the session always ends cleared. */
    method Logout(call: Call<()>) returns (called: bool)
      modifies this`user, this`token, storage
      ensures called <==> TruthyText(old(token))
      ensures Cleared() && Synced()
      ensures storage.items == old(storage.items) - {TOKEN_KEY}
    {
      called := token.Some? && token.value != "";
      ClearAuth();
    }

    /** `fetchUser()`: without a truthy token nothing happens; on success the
        user is replaced; on failure the session is cleared and the error is
        not thrown. */
    method FetchUser(call: Call<Option<User>>) returns (called: bool)
      modifies this`user, this`token, storage
      ensures called <==> TruthyText(old(token))
      ensures !called ==> user == old(user) && token == old(token) && storage.items == old(storage.items)
      ensures called && call.Resolves? ==>
        user == call.data && token == old(token) && storage.items == old(storage.items)
      ensures called && call.Rejects? ==>
        Cleared() && storage.items == old(storage.items) - {TOKEN_KEY}
      ensures old(Synced()) ==> Synced()
    {
      called := token.Some? && token.value != "";
      if !called {
        return;
      }
      match call {
        case Resolves(data) =>
          user := data;
        case Rejects(_) =>
          ClearAuth();
      }
    }
  }

  /** Clearing twice leaves the same state as clearing once. */
  method ClearAuthTwice(store: Store)
    modifies store, store.storage
    ensures store.Cleared() && store.Synced()
    ensures store.storage.items == old(store.storage.items) - {TOKEN_KEY}
  {
    store.ClearAuth();
    ghost var once := store.storage.items;
    store.ClearAuth();
    assert store.storage.items == once;
  }

  /** A successful login followed by a reload: the new store starts with the
      token that login persisted. */
  method LoginSurvivesReload(store: Store, data: LoginData) returns (reloaded: Store)
    modifies store, store.storage
    ensures fresh(reloaded) && reloaded.storage == store.storage
    ensures reloaded.token == Some(data.token) && reloaded.user == None
  {
    var _, _ := store.Login(Resolves(data));
    reloaded := new Store(store.storage);
  }
}

=== FILE: base_api.dfy ===
/** The base API client (src/services/api/BaseApiService.ts): a service for
    one REST resource, the URLs it addresses, the bearer token its requests
    carry, the handling of a 401 answer, and the HTTP calls its verbs make.
    The HTTP transport itself is not modelled: a verb yields the call it
    would hand to the transport. */
module BaseApi {
  import opened Values
  import opened Text
  import opened Storage
  import AuthStore

  const MISSING_RESOURCE := "Recurso da API é obrigatório"
  const DEFAULT_HEADERS: map<string, string> := map["Content-Type" := "application/json", "Accept" := "application/json"]
  const AUTHORIZATION := "Authorization"

  /** The constructor's `options`: `baseURL` and `headers` when given. */
  datatype Options = Options(baseURL: Option<string>, headers: map<string, string>)

  /** What the constructor keeps: the resource name, the base URL the
      transport is created with, and its default headers. */
  datatype Service = Service(resource: string, baseURL: Option<string>, headers: map<string, string>)

  /** `new BaseApiService(resource, options)`, with the environment's
      `VITE_APP_API_URL` as `envBaseURL`: refuses an empty resource name;
      a `baseURL` option replaces the environment's, and header options
      replace the default headers of the same name. */
  function NewService(resource: string, options: Options, envBaseURL: Option<string>): (r: Result<Service, string>)
    ensures r.Failure? <==> resource == ""
    ensures r.Failure? ==> r.error == MISSING_RESOURCE
    ensures r.Success? ==>
      && r.value.resource == resource
      && r.value.baseURL == (if options.baseURL.Some? then options.baseURL else envBaseURL)
      && r.value.headers.Keys == DEFAULT_HEADERS.Keys + options.headers.Keys
      && (forall k :: k in options.headers ==> r.value.headers[k] == options.headers[k])
      && (forall k :: k in DEFAULT_HEADERS && k !in options.headers ==> r.value.headers[k] == DEFAULT_HEADERS[k])
  {
    if resource == "" then Failure(MISSING_RESOURCE)
    else Success(Service(resource, if options.baseURL.Some? then options.baseURL else envBaseURL, DEFAULT_HEADERS + options.headers))
  }

  /** `getUrl(endpoint)`: the resource path, followed by `/` and the
      endpoint when there is one; nothing is normalised. */
  function GetUrl(resource: string, endpoint: string): (url: string)
    ensures StartsWith(url, "/" + resource)
    ensures endpoint == "" ==> |url| == |resource| + 1
    ensures endpoint != "" ==> |url| == |resource| + 2 + |endpoint| && url[|resource| + 1] == '/'
  {
    if endpoint != "" then "/" + resource + "/" + endpoint else "/" + resource
  }

  /** The endpoint a URL addresses under `resource`, if it is one of
      `GetUrl`'s answers. */
  function EndpointOf(resource: string, url: string): (e: Option<string>)
    ensures e.Some? ==> StartsWith(url, "/" + resource)
  {
    if url == "/" + resource then Some("")
    else if |url| > |resource| + 2 && url[..|resource| + 2] == "/" + resource + "/" then Some(url[|resource| + 2..])
    else None
  }

  /** `EndpointOf` inverts `GetUrl`, so distinct endpoints give distinct
      URLs, `..` segments included. */
  lemma EndpointOfGetUrl(resource: string, endpoint: string)
    ensures EndpointOf(resource, GetUrl(resource, endpoint)) == Some(endpoint)
  {
    var url := GetUrl(resource, endpoint);
    if endpoint != "" {
      assert url == ("/" + resource + "/") + endpoint;
      assert url[..|resource| + 2] == "/" + resource + "/";
      assert url[|resource| + 2..] == endpoint;
    }
  }

  /** Every URL `EndpointOf` accepts is the one `GetUrl` builds. */
  lemma GetUrlEndpointOf(resource: string, url: string)
    requires EndpointOf(resource, url).Some?
    ensures GetUrl(resource, EndpointOf(resource, url).value) == url
  {
    if url != "/" + resource {
      assert url == url[..|resource| + 2] + url[|resource| + 2..];
    }
  }

  /** Two endpoints of one resource share a URL only when they are equal. */
  lemma GetUrlInjective(resource: string, e1: string, e2: string)
    requires GetUrl(resource, e1) == GetUrl(resource, e2)
    ensures e1 == e2
  {
    EndpointOfGetUrl(resource, e1);
    EndpointOfGetUrl(resource, e2);
  }

  /** The parts of an outgoing request the request interceptor touches. */
  datatype RequestConfig = RequestConfig(url: string, headers: map<string, string>)

  /** The request interceptor, given what `auth_token` holds: a non-empty
      token is sent as a bearer token; otherwise the request is untouched. */
  function AuthorizeRequest(config: RequestConfig, stored: Option<string>): (out: RequestConfig)
    ensures TruthyText(stored) ==>
      out.url == config.url && out.headers == config.headers[AUTHORIZATION := "Bearer " + stored.value]
    ensures !TruthyText(stored) ==> out == config
  {
    if stored.Some? && stored.value != "" then config.(headers := config.headers[AUTHORIZATION := "Bearer " + stored.value])
    else config
  }

  /** The request interceptor as it runs: it reads `auth_token`. */
  function InterceptRequest(storage: LocalStorage, config: RequestConfig): (out: RequestConfig)
    reads storage
    ensures AUTHORIZATION in out.headers <==> AUTHORIZATION in config.headers || TruthyText(storage.GetItem(AuthStore.TOKEN_KEY))
    ensures out.headers - {AUTHORIZATION} == config.headers - {AUTHORIZATION} && out.url == config.url
  {
    AuthorizeRequest(config, storage.GetItem(AuthStore.TOKEN_KEY))
  }

  /** An HTTP answer, and how a request settles: with an answer, or with an
      error that may carry one (a network error carries none). */
  datatype HttpResponse = HttpResponse(status: int, data: Json)
  datatype Outcome = Answered(response: HttpResponse) | Errored(answer: Option<HttpResponse>, message: string)

  /** The response interceptor: every outcome passes through unchanged (an
      error is rejected again as it came); an error answered with status 401
      also removes `auth_token`. */
  method InterceptResponse(storage: LocalStorage, outcome: Outcome) returns (settled: Outcome)
    modifies storage
    ensures settled == outcome
    ensures outcome.Errored? && outcome.answer.Some? && outcome.answer.value.status == 401 ==>
      storage.items == old(storage.items) - {AuthStore.TOKEN_KEY}
    ensures !(outcome.Errored? && outcome.answer.Some? && outcome.answer.value.status == 401) ==>
      storage.items == old(storage.items)
  {
    if outcome.Errored? && outcome.answer.Some? && outcome.answer.value.status == 401 {
      storage.RemoveItem(AuthStore.TOKEN_KEY);
    }
    settled := outcome;
  }

  /** After a 401 the next request goes out without a bearer token of its
      own. */
  method UnauthorizedDropsBearer(storage: LocalStorage, outcome: Outcome, next: RequestConfig)
    returns (sent: RequestConfig)
    requires outcome.Errored? && outcome.answer.Some? && outcome.answer.value.status == 401
    modifies storage
    ensures sent == next
  {
    var _ := InterceptResponse(storage, outcome);
    sent := InterceptRequest(storage, next);
  }

  /** An HTTP verb. */
  datatype Verb = Get | Post | Put | Patch | Delete

  /** A call handed to the transport: the verb, the URL, the query
      parameters (only `get` sends them) and the body (only `post`, `put` and
      `patch` send one). */
  datatype HttpCall = HttpCall(verb: Verb, url: string, params: Option<Json>, body: Option<Json>)

  /** `get(endpoint, params)`. */
  function GetCall(svc: Service, endpoint: string, params: Json): (c: HttpCall)
    ensures c.verb == Get && EndpointOf(svc.resource, c.url) == Some(endpoint)
    ensures c.params == Some(params) && c.body.None?
  {
    EndpointOfGetUrl(svc.resource, endpoint);
    HttpCall(Get, GetUrl(svc.resource, endpoint), Some(params), None)
  }

  /** `post`, `put` and `patch`: the data is the body; there are no query
      parameters. */
  function SendCall(svc: Service, verb: Verb, endpoint: string, data: Json): (c: HttpCall)
    requires verb == Post || verb == Put || verb == Patch
    ensures c.verb == verb && EndpointOf(svc.resource, c.url) == Some(endpoint)
    ensures c.params.None? && c.body == Some(data)
  {
    EndpointOfGetUrl(svc.resource, endpoint);
    HttpCall(verb, GetUrl(svc.resource, endpoint), None, Some(data))
  }

  /** `delete(endpoint)`: neither parameters nor body. */
  function DeleteCall(svc: Service, endpoint: string): (c: HttpCall)
    ensures c.verb == Delete && EndpointOf(svc.resource, c.url) == Some(endpoint)
    ensures c.params.None? && c.body.None?
  {
    EndpointOfGetUrl(svc.resource, endpoint);
    HttpCall(Delete, GetUrl(svc.resource, endpoint), None, None)
  }

  /** `request(method, url, data, config)`: the request object, where a key
      of `config` replaces the method, URL or data of the same name. */
  function RawRequest(verb: string, url: string, data: Json, config: map<string, Json>): (req: map<string, Json>)
    ensures req.Keys == {"method", "url", "data"} + config.Keys
    ensures forall k :: k in config ==> req[k] == config[k]
    ensures "method" !in config ==> req["method"] == JString(verb)
    ensures "url" !in config ==> req["url"] == JString(url)
    ensures "data" !in config ==> req["data"] == data
  {
    map["method" := JString(verb), "url" := JString(url), "data" := data] + config
  }
}

=== FILE: direct_routing.dfy ===
/** The route geometry cache and the daily call counter of the direct routing
    service (src/services/DirectRoutingService.ts): a cache key built from the
    ordered coordinates, a cache over `localStorage`, a per-day call counter,
    and `calculateRoute`, which checks the cache, counts the call, asks the
    routing provider and stores its answer. */
module DirectRouting {
  import opened Values
  import opened Text
  import opened Storage

  /** A point; `lat` and `lng` are the exact values of the JavaScript numbers. */
  datatype LatLng = LatLng(lat: real, lng: real)

  // ---------------------------------------------------------------------
  // The cache key

  /** What `x.toFixed(6)` keeps of `x`: whether a minus sign is written and
      the magnitude in millionths, rounded to the nearest integer (the larger
      one on a tie). */
  datatype Fixed6 = Fixed6(negative: bool, micros: nat)

  const MICROS: nat := 1000000

  function Abs(x: real): real { if x < 0.0 then -x else x }

  function RoundFixed6(x: real): (f: Fixed6)
    ensures f.negative <==> x < 0.0
    ensures f.micros as real - 0.5 <= Abs(x) * 1000000.0 < f.micros as real + 0.5
  {
    Fixed6(x < 0.0, (Abs(x) * 1000000.0 + 0.5).Floor)
  }

  /** The text of a rounded number: sign, integer part, point, six decimals. */
  function RenderFixed6(f: Fixed6): (s: string)
    ensures |s| >= 8 && ',' !in s && '|' !in s
  {
    (if f.negative then "-" else "") + NatToDecimal(f.micros / MICROS) + "." + PadDigits(f.micros % MICROS, 6)
  }

  /** `x.toFixed(6)`. */
  function ToFixed6(x: real): string
  {
    RenderFixed6(RoundFixed6(x))
  }

  /** One point of the key: `${lat.toFixed(6)},${lng.toFixed(6)}`. */
  function PointText(p: LatLng): string
  {
    ToFixed6(p.lat) + "," + ToFixed6(p.lng)
  }

  function PointTexts(points: seq<LatLng>): (r: seq<string>)
    ensures |r| == |points| && forall i :: 0 <= i < |points| ==> r[i] == PointText(points[i])
  {
    seq(|points|, i requires 0 <= i < |points| => PointText(points[i]))
  }

  /** `RouteCache.getKey(points)`: the points' texts in input order, joined by `|`. */
  function RouteKey(points: seq<LatLng>): (key: string)
    ensures key == "" <==> points == []
    ensures |points| == 1 ==> key == PointText(points[0])
  {
    var texts := PointTexts(points);
    assert points != [] ==> texts[0] == ToFixed6(points[0].lat) + [','] + ToFixed6(points[0].lng);
    Join(texts, '|')
  }

  /** Two point lists that `toFixed(6)` cannot tell apart. */
  predicate SameAfterRounding(p: seq<LatLng>, q: seq<LatLng>)
  {
    && |p| == |q|
    && forall i :: 0 <= i < |p| ==>
         RoundFixed6(p[i].lat) == RoundFixed6(q[i].lat) && RoundFixed6(p[i].lng) == RoundFixed6(q[i].lng)
  }

  /** Different rounded numbers are written differently. */
  lemma {:induction false} RenderFixed6Injective(f: Fixed6, g: Fixed6)
    requires RenderFixed6(f) == RenderFixed6(g)
    ensures f == g
  {
    var s := RenderFixed6(f);
    RenderFixed6Parts(f);
    RenderFixed6Parts(g);
    assert f.negative == g.negative;
    assert Pow10(6) == MICROS;
    PadDigitsValue(f.micros % MICROS, 6);
    PadDigitsValue(g.micros % MICROS, 6);
    NatToDecimalValue(f.micros / MICROS);
    NatToDecimalValue(g.micros / MICROS);
    assert f.micros % MICROS == g.micros % MICROS;
    assert f.micros / MICROS == g.micros / MICROS;
  }

  /** Where the sign, the integer part and the decimals of a rendered
      number sit in its text. */
  lemma RenderFixed6Parts(f: Fixed6)
    ensures var s := RenderFixed6(f);
      && (s[0] == '-' <==> f.negative)
      && s[|s| - 6..] == PadDigits(f.micros % MICROS, 6)
      && s[(if f.negative then 1 else 0)..|s| - 7] == NatToDecimal(f.micros / MICROS)
  {
    var s := RenderFixed6(f);
    var sign := if f.negative then "-" else "";
    var q := NatToDecimal(f.micros / MICROS);
    var r := PadDigits(f.micros % MICROS, 6);
    assert s == sign + q + "." + r;
    assert IsDigit(q[0]);
    assert s[|s| - 6..] == r;
    assert s[|sign|..|s| - 7] == q;
  }

  /** `getKey` decodes: splitting the key at `|` gives the points' texts in
      order, and splitting a point's text at `,` gives its two coordinates. */
  lemma {:induction false} RouteKeySplits(points: seq<LatLng>)
    requires |points| >= 1
    ensures Split(RouteKey(points), '|') == PointTexts(points)
    ensures forall i :: 0 <= i < |points| ==>
      Split(PointTexts(points)[i], ',') == [ToFixed6(points[i].lat), ToFixed6(points[i].lng)]
  {
    var texts := PointTexts(points);
    forall i | 0 <= i < |texts| ensures '|' !in texts[i] {
      assert texts[i] == ToFixed6(points[i].lat) + [','] + ToFixed6(points[i].lng);
    }
    SplitJoin(texts, '|');
    forall i | 0 <= i < |points|
      ensures Split(texts[i], ',') == [ToFixed6(points[i].lat), ToFixed6(points[i].lng)]
    {
      var parts := [ToFixed6(points[i].lat), ToFixed6(points[i].lng)];
      assert Join(parts, ',') == texts[i];
      SplitJoin(parts, ',');
    }
  }

  /** A point's text determines how both of its coordinates round. */
  lemma {:induction false} PointTextInjective(a: LatLng, b: LatLng)
    requires PointText(a) == PointText(b)
    ensures RoundFixed6(a.lat) == RoundFixed6(b.lat) && RoundFixed6(a.lng) == RoundFixed6(b.lng)
  {
    var xs := [ToFixed6(a.lat), ToFixed6(a.lng)];
    var ys := [ToFixed6(b.lat), ToFixed6(b.lng)];
    assert Join(xs, ',') == PointText(a);
    assert Join(ys, ',') == PointText(b);
    JoinInjective(xs, ys, ',');
    RenderFixed6Injective(RoundFixed6(a.lat), RoundFixed6(b.lat));
    RenderFixed6Injective(RoundFixed6(a.lng), RoundFixed6(b.lng));
  }

  lemma PointTextsSeparable(points: seq<LatLng>)
    ensures forall i :: 0 <= i < |points| ==> PointTexts(points)[i] != "" && '|' !in PointTexts(points)[i]
  {
    forall i | 0 <= i < |points| ensures PointTexts(points)[i] != "" && '|' !in PointTexts(points)[i] {
      assert PointTexts(points)[i] == ToFixed6(points[i].lat) + [','] + ToFixed6(points[i].lng);
    }
  }

  /** Equal keys come only from lists that round alike. */
  lemma {:induction false} RouteKeyEqualRoundsAlike(p: seq<LatLng>, q: seq<LatLng>)
    requires RouteKey(p) == RouteKey(q)
    ensures SameAfterRounding(p, q)
  {
    PointTextsSeparable(p);
    PointTextsSeparable(q);
    JoinInjective(PointTexts(p), PointTexts(q), '|');
    forall i | 0 <= i < |p|
      ensures RoundFixed6(p[i].lat) == RoundFixed6(q[i].lat) && RoundFixed6(p[i].lng) == RoundFixed6(q[i].lng)
    {
      assert PointTexts(p)[i] == PointTexts(q)[i];
      PointTextInjective(p[i], q[i]);
    }
  }

  /** `getKey` gives two point lists the same key exactly when they have the
      same length and every coordinate rounds to the same six-decimal text. */
  lemma {:induction false} RouteKeyEqualIff(p: seq<LatLng>, q: seq<LatLng>)
    ensures RouteKey(p) == RouteKey(q) <==> SameAfterRounding(p, q)
  {
    if SameAfterRounding(p, q) {
      assert PointTexts(p) == PointTexts(q);
    }
    if RouteKey(p) == RouteKey(q) {
      RouteKeyEqualRoundsAlike(p, q);
    }
  }

  /** A number that is a whole count of millionths. */
  predicate OnMicroGrid(x: real)
  {
    (x * 1000000.0).Floor as real == x * 1000000.0
  }

  lemma RoundFixed6OnGrid(x: real, y: real)
    requires OnMicroGrid(x) && OnMicroGrid(y)
    ensures RoundFixed6(x) == RoundFixed6(y) <==> x == y
  {
    var kx, ky := (x * 1000000.0).Floor, (y * 1000000.0).Floor;
    assert x < 0.0 <==> kx < 0;
    assert y < 0.0 <==> ky < 0;
    assert Abs(x) * 1000000.0 == (if kx < 0 then -kx else kx) as real;
    assert Abs(y) * 1000000.0 == (if ky < 0 then -ky else ky) as real;
    assert RoundFixed6(x).micros == if kx < 0 then -kx else kx;
    assert RoundFixed6(y).micros == if ky < 0 then -ky else ky;
  }

  /** For coordinates given to six decimals, the key identifies the points. */
  lemma {:induction false} RouteKeyOnGridIdentifies(p: seq<LatLng>, q: seq<LatLng>)
    requires forall i :: 0 <= i < |p| ==> OnMicroGrid(p[i].lat) && OnMicroGrid(p[i].lng)
    requires forall i :: 0 <= i < |q| ==> OnMicroGrid(q[i].lat) && OnMicroGrid(q[i].lng)
    ensures RouteKey(p) == RouteKey(q) <==> p == q
  {
    RouteKeyEqualIff(p, q);
    if SameAfterRounding(p, q) {
      forall i | 0 <= i < |p| ensures p[i] == q[i] {
        RoundFixed6OnGrid(p[i].lat, q[i].lat);
        RoundFixed6OnGrid(p[i].lng, q[i].lng);
      }
    }
  }

  /** `toFixed` writes a minus sign for any negative number, so a coordinate
      just below zero gets a different key from zero although both round to
      0.000000. */
  lemma NegativeZeroHasItsOwnKey()
    ensures RouteKey([LatLng(-0.0000001, 0.0)]) != RouteKey([LatLng(0.0, 0.0)])
    ensures RoundFixed6(-0.0000001).micros == RoundFixed6(0.0).micros == 0
  {
    RouteKeyEqualIff([LatLng(-0.0000001, 0.0)], [LatLng(0.0, 0.0)]);
  }

  // ---------------------------------------------------------------------
  // The cache over localStorage

  /** `JSON.stringify` and `JSON.parse` (None: the parse throws). */
  datatype Codec = Codec(stringify: Json -> string, parse: string -> Option<Json>)

  /** What the JSON runtime guarantees: parsing what was stringified gives the
      value back, and no value is stringified to the empty string. */
  ghost predicate FaithfulCodec(c: Codec)
  {
    forall j :: c.parse(c.stringify(j)) == Some(j) && c.stringify(j) != ""
  }

  /** The storage key of a route: `route_` followed by the cache key. */
  function CacheKey(points: seq<LatLng>): string
  {
    "route_" + RouteKey(points)
  }

  /** `RouteCache.getRoute(points)`: None when the entry is missing, empty or
      not valid JSON; otherwise the parsed value (which may be falsy). */
  function GetRoute(items: map<string, string>, codec: Codec, points: seq<LatLng>): (r: Option<Json>)
    ensures CacheKey(points) !in items ==> r == None
    ensures CacheKey(points) in items && items[CacheKey(points)] == "" ==> r == None
    ensures CacheKey(points) in items && items[CacheKey(points)] != "" && codec.parse(items[CacheKey(points)]).None? ==> r == None
    ensures r.Some? ==> CacheKey(points) in items && r == codec.parse(items[CacheKey(points)])
  {
    var key := CacheKey(points);
    if key in items && items[key] != "" then codec.parse(items[key]) else None
  }

  /** `RouteCache.saveRoute(points, routeData)`. */
  method SaveRoute(ls: LocalStorage, codec: Codec, points: seq<LatLng>, routeData: Json)
    modifies ls
    ensures ls.items == old(ls.items)[CacheKey(points) := codec.stringify(routeData)]
  {
    ls.SetItem(CacheKey(points), codec.stringify(routeData));
  }

  /** Saving then reading the same points gives the saved value back; reading
      other points gives what was there before, unless they round to the same
      key. */
  lemma {:induction false} SaveThenGet(items: map<string, string>, codec: Codec, p: seq<LatLng>, q: seq<LatLng>, d: Json)
    requires FaithfulCodec(codec)
    ensures GetRoute(items[CacheKey(p) := codec.stringify(d)], codec, q)
         == if SameAfterRounding(p, q) then Some(d) else GetRoute(items, codec, q)
  {
    RouteKeyEqualIff(p, q);
    assert CacheKey(p) == CacheKey(q) <==> RouteKey(p) == RouteKey(q) by {
      if CacheKey(p) == CacheKey(q) {
        assert RouteKey(p) == CacheKey(p)[6..] == CacheKey(q)[6..] == RouteKey(q);
      }
    }
  }

  /** Lists that round alike share one cache entry. */
  lemma {:induction false} GetRouteRespectsRounding(items: map<string, string>, codec: Codec, p: seq<LatLng>, q: seq<LatLng>)
    requires SameAfterRounding(p, q)
    ensures GetRoute(items, codec, p) == GetRoute(items, codec, q)
  {
    RouteKeyEqualIff(p, q);
  }

  // ---------------------------------------------------------------------
  // The daily call counter

  const DAILY_QUOTA: nat := 2000
  const WARNING_THRESHOLD: nat := 1800

  /** The storage key of the counter for the day `today` (`YYYY-MM-DD`). */
  function CounterKey(today: string): string
  {
    "ors_api_calls_" + today
  }

  /** A counter key never names a cached route. */
  lemma CounterKeyIsNotCacheKey(today: string, points: seq<LatLng>)
    ensures CounterKey(today) != CacheKey(points)
  {
    assert CounterKey(today)[0] == 'o' && CacheKey(points)[0] == 'r';
  }

  /** `parseInt(localStorage.getItem(key) || '0') + 1`; None is NaN. */
  function NextCount(items: map<string, string>, today: string): Option<int>
  {
    var key := CounterKey(today);
    var text := if key in items && items[key] != "" then items[key] else "0";
    match ParseInt(text, false)
    case None => None
    case Some(c) => Some(c + 1)
  }

  /** `newCount.toString()`. */
  function CountText(count: Option<int>): string
  {
    match count
    case None => "NaN"
    case Some(n) => IntToString(n)
  }

  /** The storage after one `countApiCalls`. */
  function CountedItems(items: map<string, string>, today: string): map<string, string>
  {
    items[CounterKey(today) := CountText(NextCount(items, today))]
  }

  /** `DirectRoutingService.countApiCalls()`, with the day as a parameter;
      `warned` tells whether the approaching-limit warning was logged. */
  method CountApiCalls(ls: LocalStorage, today: string) returns (newCount: Option<int>, warned: bool)
    modifies ls
    ensures newCount == NextCount(old(ls.items), today)
    ensures ls.items == CountedItems(old(ls.items), today)
    ensures warned <==> newCount.Some? && newCount.value > WARNING_THRESHOLD
  {
    var key := CounterKey(today);
    var stored := ls.GetItem(key);
    var text := if stored.Some? && stored.value != "" then stored.value else "0";
    newCount := match ParseInt(text, false) case None => None case Some(c) => Some(c + 1);
    ls.SetItem(key, CountText(newCount));
    warned := newCount.Some? && newCount.value > WARNING_THRESHOLD;
  }

  /** A day without a counter starts at one. */
  lemma FirstCallOfTheDay(items: map<string, string>, today: string)
    requires CounterKey(today) !in items
    ensures NextCount(items, today) == Some(1)
  {
    ParseIntToString(0);
  }

  /** Each call stores exactly one more than the previous call returned, so
      the counter reads back what was written. */
  lemma {:induction false} CountingIncrements(items: map<string, string>, today: string, n: int)
    requires NextCount(items, today) == Some(n)
    ensures NextCount(CountedItems(items, today), today) == Some(n + 1)
  {
    ParseIntToString(n);
  }

  /** Counting touches no other day's counter and no other key. */
  lemma CountingIsLocal(items: map<string, string>, today: string, key: string)
    requires key != CounterKey(today)
    ensures key in CountedItems(items, today) <==> key in items
    ensures key in items ==> CountedItems(items, today)[key] == items[key]
  {
  }

  // ---------------------------------------------------------------------
  // calculateRoute

  const ORS_BASE_URL := "https://api.openrouteservice.org/v2"

  /** What `fetch` gives: a network failure, or a reply with its `ok` flag and
      its body as JSON (None: `response.json()` rejects). */
  datatype FetchOutcome = NetworkFailure | Reply(ok: bool, body: Option<Json>)

  /** The errors `calculateRoute` throws. */
  datatype RouteError =
    | TooFewPoints                 // fewer than 2 points
    | ProviderError(detail: Json)  // a non-ok reply, with its JSON body; the source's Error message
                                   // is "Erro na API OpenRouteService: " and the body's `error` field
    | UnreadableBody               // the reply's body is not JSON
    | NetworkError                 // fetch itself failed

  /** The request sent to the provider: its URL and the body's `coordinates`
      (the body's other fields are the constants `preference: 'recommended'`,
      `units: 'km'`, `language: 'pt'`, `geometry_simplify: false`,
      `instructions: true`). */
  datatype DirectionsRequest = DirectionsRequest(url: string, coordinates: seq<(real, real)>)

  function DirectionsUrl(profile: string): string
  {
    ORS_BASE_URL + "/directions/" + profile + "/geojson"
  }

  /** `points.map(point => [point.lng, point.lat])`. */
  function LngLatPairs(points: seq<LatLng>): (r: seq<(real, real)>)
    ensures |r| == |points| && forall i :: 0 <= i < |points| ==> r[i] == (points[i].lng, points[i].lat)
  {
    seq(|points|, i requires 0 <= i < |points| => (points[i].lng, points[i].lat))
  }

  /** Everything one `calculateRoute` call produces: its result, the request
      it sent (if any) and the storage afterwards. */
  datatype RouteRun = RouteRun(result: Result<Json, RouteError>, request: Option<DirectionsRequest>, items: map<string, string>)

  predicate CacheHit(items: map<string, string>, codec: Codec, points: seq<LatLng>)
  {
    GetRoute(items, codec, points).Some? && Truthy(GetRoute(items, codec, points).value)
  }

  /** The effects of `calculateRoute(points, profile)` in order: reject fewer
      than two points, return a truthy cached value, otherwise count the call,
      send the request and, on an ok reply, store the body and return it. */
  function RunCalculateRoute(items: map<string, string>, codec: Codec, points: seq<LatLng>,
                             profile: string, today: string, fetch: FetchOutcome): (run: RouteRun)
    ensures run.request.Some? <==> |points| >= 2 && !CacheHit(items, codec, points)
    ensures run.result.Success? && run.request.Some? ==> fetch == Reply(true, Some(run.result.value))
    ensures forall k :: k != CounterKey(today) && k != CacheKey(points) ==>
      (k in run.items <==> k in items) && (k in items ==> run.items[k] == items[k])
  {
    if |points| < 2 then RouteRun(Failure(TooFewPoints), None, items)
    else if CacheHit(items, codec, points) then RouteRun(Success(GetRoute(items, codec, points).value), None, items)
    else
      var counted := CountedItems(items, today);
      var request := Some(DirectionsRequest(DirectionsUrl(profile), LngLatPairs(points)));
      match fetch
      case NetworkFailure => RouteRun(Failure(NetworkError), request, counted)
      case Reply(ok, body) =>
        if body.None? then RouteRun(Failure(UnreadableBody), request, counted)
        else if !ok then RouteRun(Failure(ProviderError(body.value)), request, counted)
        else RouteRun(Success(body.value), request, counted[CacheKey(points) := codec.stringify(body.value)])
  }

  /** `DirectRoutingService.calculateRoute(points, profile)`, with the day and
      the provider's answer as parameters. */
  method CalculateRoute(ls: LocalStorage, codec: Codec, points: seq<LatLng>, profile: string,
                        today: string, fetch: FetchOutcome)
    returns (result: Result<Json, RouteError>, request: Option<DirectionsRequest>)
    modifies ls
    ensures RouteRun(result, request, ls.items) == RunCalculateRoute(old(ls.items), codec, points, profile, today, fetch)
  {
    if |points| < 2 {
      return Failure(TooFewPoints), None;
    }
    var cached := GetRoute(ls.items, codec, points);
    if cached.Some? && Truthy(cached.value) {
      return Success(cached.value), None;
    }
    var coordinates := LngLatPairs(points);
    var _, _ := CountApiCalls(ls, today);
    request := Some(DirectionsRequest(DirectionsUrl(profile), coordinates));
    match fetch {
      case NetworkFailure =>
        result := Failure(NetworkError);
      case Reply(ok, body) =>
        if body.None? {
          result := Failure(UnreadableBody);
        } else if !ok {
          result := Failure(ProviderError(body.value));
        } else {
          SaveRoute(ls, codec, points, body.value);
          result := Success(body.value);
        }
    }
  }

  /** Fewer than two points: an error before any cache read, count or request. */
  lemma TooFewPointsFailsFirst(items: map<string, string>, codec: Codec, points: seq<LatLng>,
                               profile: string, today: string, fetch: FetchOutcome)
    requires |points| < 2
    ensures RunCalculateRoute(items, codec, points, profile, today, fetch) == RouteRun(Failure(TooFewPoints), None, items)
  {
  }

  /** A truthy cached value is returned as it is: no count, no request. */
  lemma CacheHitHasNoEffects(items: map<string, string>, codec: Codec, points: seq<LatLng>,
                             profile: string, today: string, fetch: FetchOutcome)
    requires |points| >= 2 && CacheHit(items, codec, points)
    ensures RunCalculateRoute(items, codec, points, profile, today, fetch)
         == RouteRun(Success(GetRoute(items, codec, points).value), None, items)
  {
  }

  /** On a miss the counter moves on by exactly one, whatever the reply, and
      the request carries the points as `[lng, lat]` pairs in input order; a
      failed request stores nothing else. */
  lemma {:induction false} MissCountsOnce(items: map<string, string>, codec: Codec, points: seq<LatLng>,
                                          profile: string, today: string, fetch: FetchOutcome, n: int)
    requires |points| >= 2 && !CacheHit(items, codec, points)
    requires NextCount(items, today) == Some(n)
    ensures var run := RunCalculateRoute(items, codec, points, profile, today, fetch);
      && run.request == Some(DirectionsRequest(DirectionsUrl(profile), LngLatPairs(points)))
      && CounterKey(today) in run.items
      && ParseInt(run.items[CounterKey(today)], false) == Some(n)
      && (run.result.Failure? ==> run.items == CountedItems(items, today))
  {
    var counted := CountedItems(items, today);
    var key := CounterKey(today);
    assert counted[key] == IntToString(n);
    ParseIntToString(n);
    var run := RunCalculateRoute(items, codec, points, profile, today, fetch);
    if fetch.Reply? && fetch.body.Some? && fetch.ok {
      CounterKeyIsNotCacheKey(today, points);
      assert run.items == counted[CacheKey(points) := codec.stringify(fetch.body.value)];
      assert run.items[key] == counted[key];
    } else {
      assert run.items == counted;
    }
  }

  /** An ok reply is stored under the points' key before it is returned, so
      the same call made again right away (with any reply) is a cache hit when
      the reply was truthy. */
  lemma {:induction false} SuccessIsCached(items: map<string, string>, codec: Codec, points: seq<LatLng>,
                                           profile: string, today: string, body: Json,
                                           profile2: string, today2: string, fetch2: FetchOutcome)
    requires FaithfulCodec(codec)
    requires |points| >= 2 && !CacheHit(items, codec, points)
    ensures var run := RunCalculateRoute(items, codec, points, profile, today, Reply(true, Some(body)));
      && run.result == Success(body)
      && GetRoute(run.items, codec, points) == Some(body)
      && (Truthy(body) ==>
            RunCalculateRoute(run.items, codec, points, profile2, today2, fetch2) == RouteRun(Success(body), None, run.items))
  {
    var run := RunCalculateRoute(items, codec, points, profile, today, Reply(true, Some(body)));
    assert run.items == CountedItems(items, today)[CacheKey(points) := codec.stringify(body)];
  }
}

=== FILE: modal_mixin.dfy ===
/** The behaviour every modal component shares (src/mixin/ModalMixin.ts):
    the props a parent passes, the component's own `isSaving` and
    `initialData`, the events it emits, and its registration with the modal
    registry while mounted. */
module ModalMixin {
  import opened Values
  import Registry = ModalService

  /** An event the component emits to its parent. */
  datatype Event =
    | UpdateModelValue(value: bool)   // 'update:modelValue'
    | ModalOpened(id: string)         // 'modal:opened'
    | ModalClosed(id: string)         // 'modal:closed'
    | ModalBeforeClose(id: string)    // 'modal:beforeClose'

  class ModalComponent {
    // Props, owned by the parent.
    var modelValue: bool
    var persistent: bool
    var loading: bool
    const modalId: string
    // Component state.
    var isSaving: bool
    var initialData: Json
    /** Every event emitted so far, in order. */
    var emitted: seq<Event>

    constructor (modelValue: bool, persistent: bool, loading: bool, modalId: string)
      ensures this.modelValue == modelValue && this.persistent == persistent
      ensures this.loading == loading && this.modalId == modalId
      ensures !isSaving && initialData == JNull && emitted == []
    {
      this.modelValue := modelValue;
      this.persistent := persistent;
      this.loading := loading;
      this.modalId := modalId;
      isSaving := false;
      initialData := JNull;
      emitted := [];
    }

    /** The computed `show`: it reads the `modelValue` prop. */
    function Show(): (r: bool)
      reads this
      ensures r <==> modelValue
    {
      modelValue
    }

    /** The events one write of `show` emits: the new value for `v-model`,
        then opened or closed. */
    function ShowEvents(val: bool): (events: seq<Event>)
      ensures |events| == 2 && events[0] == UpdateModelValue(val)
      ensures events[1] == (if val then ModalOpened(modalId) else ModalClosed(modalId))
    {
      [UpdateModelValue(val), if val then ModalOpened(modalId) else ModalClosed(modalId)]
    }

    /** Writing `show`: only events; the prop changes when the parent says so. */
    method SetShow(val: bool)
      modifies this`emitted
      ensures emitted == old(emitted) + ShowEvents(val)
      ensures Show() == old(Show())
    {
      emitted := emitted + ShowEvents(val);
    }

    /** `open(initialData)`. */
    method Open(data: Json)
      modifies this`initialData, this`emitted
      ensures initialData == data
      ensures emitted == old(emitted) + [UpdateModelValue(true), ModalOpened(modalId)]
    {
      initialData := data;
      SetShow(true);
    }

    /** `close(withPersistData)`: refused while a persistent modal is
        loading; otherwise announces the close, closes, and unless asked to
        keep the data resets it. */
    method Close(withPersistData: bool)
      modifies this`isSaving, this`initialData, this`emitted
      ensures persistent && loading ==>
        emitted == old(emitted) && isSaving == old(isSaving) && initialData == old(initialData)
      ensures !(persistent && loading) ==>
        emitted == old(emitted) + [ModalBeforeClose(modalId), UpdateModelValue(false), ModalClosed(modalId)]
      ensures !(persistent && loading) && !withPersistData ==> !isSaving && initialData == JNull
      ensures withPersistData ==> isSaving == old(isSaving) && initialData == old(initialData)
    {
      if persistent && loading {
        return;
      }
      emitted := emitted + [ModalBeforeClose(modalId)];
      SetShow(false);
      if !withPersistData {
        ResetData();
      }
    }

    /** `startLoading()`. */
    method StartLoading()
      modifies this`isSaving
      ensures isSaving
    {
      isSaving := true;
    }

    /** `stopLoading()`. */
    method StopLoading()
      modifies this`isSaving
      ensures !isSaving
    {
      isSaving := false;
    }

    /** `resetData()`. */
    method ResetData()
      modifies this`isSaving, this`initialData
      ensures !isSaving && initialData == JNull
    {
      isSaving := false;
      initialData := JNull;
    }

    /** `cancel()`: a close that does not keep the data. */
    method Cancel()
      modifies this`isSaving, this`initialData, this`emitted
      ensures persistent && loading ==>
        emitted == old(emitted) && isSaving == old(isSaving) && initialData == old(initialData)
      ensures !(persistent && loading) ==>
        && emitted == old(emitted) + [ModalBeforeClose(modalId), UpdateModelValue(false), ModalClosed(modalId)]
        && !isSaving && initialData == JNull
    {
      Close(false);
    }

    /** The `modelValue` watcher. By the time it runs `show` already reads
        the new value, so neither of its branches writes `show`: the prop
        changes and nothing is emitted. */
    method ModelValueChanged(newVal: bool)
      modifies this`modelValue
      ensures modelValue == newVal && Show() == newVal
    {
      modelValue := newVal;
      assert !(newVal && !Show()) && !(!newVal && Show());
    }

    /** `mounted()`: registers this component under its id. */
    method Mounted(service: Registry.ModalService, self: Registry.Instance)
      requires service.Valid()
      modifies service`modals
      ensures service.modals == old(service.modals)[modalId := self] && service.Valid()
    {
      service.RegisterModal(modalId, self);
    }

    /** `beforeUnmount()`: removes the registration and the open id. */
    method BeforeUnmount(service: Registry.ModalService)
      requires service.Valid()
      modifies service`modals, service`activeModals
      ensures service.modals == old(service.modals) - {modalId}
      ensures !service.IsModalActive(modalId) && service.Valid()
    {
      service.UnregisterModal(modalId);
    }
  }

  /** Saving does not hold a persistent modal open: only the parent's
      `loading` prop does. */
  method SavingDoesNotBlockClose(m: ModalComponent)
    requires m.persistent && !m.loading
    modifies m
    ensures m.emitted == old(m.emitted) + [ModalBeforeClose(m.modalId), UpdateModelValue(false), ModalClosed(m.modalId)]
  {
    m.StartLoading();
    m.Close(true);
  }
}

=== FILE: modal_service.dfy ===
/** The modal registry (src/services/ModalService.ts): modal instances by id
    and the ids of the open ones, in the order they were opened. The
    instances themselves are outside this module; what the registry does to
    them is recorded as the sequence of `open`/`close` calls it makes. */
module ModalService {
  import opened Values
  import opened Seqs

  /** A registered modal component, by identity. */
  datatype Instance = Instance(handle: nat)

  /** A call the registry makes on a registered instance. */
  datatype InstanceCall = OpenCall(instance: Instance, initialData: Json) | CloseCall(instance: Instance)

  /** One `close()` call per id of `order`, in that order. */
  function ClosesOf(order: seq<string>, modals: map<string, Instance>): (calls: seq<InstanceCall>)
    requires forall id :: id in order ==> id in modals
    ensures |calls| == |order|
    ensures forall i :: 0 <= i < |order| ==> calls[i] == CloseCall(modals[order[i]])
  {
    if order == [] then []
    else [CloseCall(modals[order[0]])] + ClosesOf(order[1..], modals)
  }

  class ModalService {
    var modals: map<string, Instance>
    var activeModals: seq<string>
    var calls: seq<InstanceCall>

    /** Every open id occurs once and is registered. */
    ghost predicate Valid()
      reads this
    {
      NoDuplicates(activeModals) && forall id :: id in activeModals ==> id in modals
    }

    constructor ()
      ensures modals == map[] && activeModals == [] && calls == []
      ensures Valid()
    {
      modals := map[];
      activeModals := [];
      calls := [];
    }

    /** `registerModal(id, instance)`: registers or replaces. */
    method RegisterModal(id: string, instance: Instance)
      requires Valid()
      modifies this`modals
      ensures modals == old(modals)[id := instance]
      ensures Valid()
    {
      modals := modals[id := instance];
    }

    /** `unregisterModal(id)`: forgets the instance and drops the id from
        the open ones, keeping the others in their order. */
    method UnregisterModal(id: string)
      requires Valid()
      modifies this`modals, this`activeModals
      ensures modals == old(modals) - {id}
      ensures activeModals == Without(old(activeModals), id)
      ensures !IsModalActive(id) && Valid()
    {
      modals := modals - {id};
      activeModals := Without(activeModals, id);
    }

    /** `openModal(id, initialData)`: for a registered id, opens the instance
        with the data and appends the id to the open ones unless it is there
        already; an unknown id changes nothing. */
    method OpenModal(id: string, initialData: Json) returns (found: bool)
      requires Valid()
      modifies this`activeModals, this`calls
      ensures found <==> id in modals
      ensures found ==>
        && calls == old(calls) + [OpenCall(modals[id], initialData)]
        && activeModals == (if id in old(activeModals) then old(activeModals) else old(activeModals) + [id])
      ensures !found ==> calls == old(calls) && activeModals == old(activeModals)
      ensures found ==> IsModalActive(id)
      ensures Valid()
    {
      if id !in modals {
        return false;
      }
      calls := calls + [OpenCall(modals[id], initialData)];
      if id !in activeModals {
        AppendFresh(activeModals, id);
        activeModals := activeModals + [id];
      }
      found := true;
    }

    /** `closeModal(id)`: for a registered id, closes the instance and drops
        the id from the open ones; an unknown id changes nothing. */
    method CloseModal(id: string) returns (found: bool)
      requires Valid()
      modifies this`activeModals, this`calls
      ensures found <==> id in modals
      ensures found ==>
        && calls == old(calls) + [CloseCall(modals[id])]
        && activeModals == Without(old(activeModals), id)
      ensures !found ==> calls == old(calls) && activeModals == old(activeModals)
      ensures !IsModalActive(id) && Valid()
    {
      if id !in modals {
        return false;
      }
      calls := calls + [CloseCall(modals[id])];
      activeModals := Without(activeModals, id);
      found := true;
    }

    /** `closeAllModals()`: closes every registered instance once, in the
        enumeration order of the registry (`order`), and empties the open
        ids. */
    method CloseAllModals() returns (ghost order: seq<string>)
      requires Valid()
      modifies this`activeModals, this`calls
      ensures NoDuplicates(order) && forall id :: id in order <==> id in modals
      ensures calls == old(calls) + ClosesOf(order, modals)
      ensures activeModals == [] && Valid()
    {
      var registered := modals;
      var remaining := registered.Keys;
      order := [];
      while remaining != {}
        invariant NoDuplicates(order)
        invariant forall id :: id in registered <==> id in order || id in remaining
        invariant forall id :: id in remaining ==> id !in order
        invariant calls == old(calls) + ClosesOf(order, registered)
        modifies this`calls
        decreases |remaining|
      {
        var id :| id in remaining;
        CloseStep(order, remaining, registered, id);
        calls := calls + [CloseCall(registered[id])];
        order := order + [id];
        remaining := remaining - {id};
      }
      activeModals := [];
    }

    /** `isModalActive(id)`: only a registered modal can be active. */
    function IsModalActive(id: string): (r: bool)
      reads this
      ensures Valid() && r ==> id in modals
    {
      id in activeModals
    }

    /** `getActiveModals()`: a copy of the open ids, in opening order. */
    function GetActiveModals(): (r: seq<string>)
      requires Valid()
      reads this
      ensures NoDuplicates(r)
      ensures forall id :: id in r <==> IsModalActive(id)
      ensures forall id :: id in r ==> id in modals
      ensures r == activeModals
    {
      activeModals
    }
  }

  /** One step of `closeAllModals`: the id moves from the ones still to
      close to the closed ones, and its `close()` call comes last. */
  lemma CloseStep(order: seq<string>, remaining: set<string>, modals: map<string, Instance>, id: string)
    requires NoDuplicates(order) && id in remaining
    requires forall x :: x in modals <==> x in order || x in remaining
    requires forall x :: x in remaining ==> x !in order
    ensures NoDuplicates(order + [id])
    ensures forall x :: x in modals <==> x in order + [id] || x in remaining - {id}
    ensures forall x :: x in remaining - {id} ==> x !in order + [id]
    ensures ClosesOf(order + [id], modals) == ClosesOf(order, modals) + [CloseCall(modals[id])]
  {
    AppendFresh(order, id);
    ClosesOfAppend(order, id, modals);
  }

  /** Appending an element that is not there keeps a sequence free of
      duplicates. */
  lemma AppendFresh(s: seq<string>, x: string)
    requires NoDuplicates(s) && x !in s
    ensures NoDuplicates(s + [x])
  {
    var t := s + [x];
    forall i, j | 0 <= i < j < |t|
      ensures t[i] != t[j]
    {
      if j < |s| {
        assert t[i] == s[i] && t[j] == s[j];
      } else {
        assert t[i] == s[i];
      }
    }
  }

  /** Closing one more id adds one call at the end. */
  lemma ClosesOfAppend(order: seq<string>, id: string, modals: map<string, Instance>)
    requires forall x :: x in order ==> x in modals
    requires id in modals
    ensures ClosesOf(order + [id], modals) == ClosesOf(order, modals) + [CloseCall(modals[id])]
  {
    var a := ClosesOf(order + [id], modals);
    var b := ClosesOf(order, modals) + [CloseCall(modals[id])];
    assert |a| == |b|;
    forall i | 0 <= i < |a|
      ensures a[i] == b[i]
    {
      if i < |order| {
        assert (order + [id])[i] == order[i];
      }
    }
  }

  /** Opening an open modal again does not duplicate its id, and opening a
      second one appends it after the first. */
  method OpenTwiceThenAnother(service: ModalService, a: string, b: string, data: Json)
    requires service.Valid() && service.activeModals == []
    requires a in service.modals && b in service.modals && a != b
    modifies service
    ensures service.activeModals == [a, b]
  {
    var _ := service.OpenModal(a, data);
    var _ := service.OpenModal(a, data);
    var _ := service.OpenModal(b, data);
  }
}

=== FILE: permission_utils.dfy ===
/** The front-end helpers for permission cards (`permissionUtils` in
    src/services/api/permissions/PermissionApiService.ts): code suggestion,
    validation, display formatting, grouping, search, ordering and counts. */
module PermissionUtils {
  import opened Values
  import opened Text
  import opened Seqs

  datatype Institution = Institution(id: int, name: Option<string>)

  /** A permission record as the API returns it; every field may be absent. */
  datatype Permission = Permission(
    name: Option<string>,
    code: Option<string>,
    description: Option<string>,
    icon: Option<string>,
    institutionId: Option<int>,
    institution: Option<Institution>,
    isActive: Option<bool>,
    usersCount: Option<int>,
    routesCount: Option<int>)

  /** `defaultColors`. */
  const DEFAULT_COLORS: seq<string> := [
    "#1976D2", "#388E3C", "#F57C00", "#7B1FA2",
    "#C2185B", "#00796B", "#5D4037", "#455A64",
    "#E53935", "#1565C0", "#2E7D32", "#F57F17"]

  // ---------------------------------------------------------------------
  // Code suggestion

  /** The six accent replacements, applied after upper-casing. */
  function FoldAccent(c: char): char
  {
    if '\U{00C0}' <= c <= '\U{00C5}' then 'A'        // À-Å
    else if '\U{00C8}' <= c <= '\U{00CB}' then 'E'   // È-Ë
    else if '\U{00CC}' <= c <= '\U{00CF}' then 'I'   // Ì-Ï
    else if '\U{00D2}' <= c <= '\U{00D6}' then 'O'   // Ò-Ö
    else if '\U{00D9}' <= c <= '\U{00DC}' then 'U'   // Ù-Ü
    else if c == '\U{00C7}' then 'C'                 // Ç
    else c
  }

  function FoldAccents(s: string): (r: string)
    ensures |r| == |s| && forall i :: 0 <= i < |s| ==> r[i] == FoldAccent(s[i])
  {
    if s == [] then [] else [FoldAccent(s[0])] + FoldAccents(s[1..])
  }

  /** A character of a permission code: `[A-Z0-9_]`. */
  predicate IsCodeChar(c: char)
  {
    'A' <= c <= 'Z' || '0' <= c <= '9' || c == '_'
  }

  /** A character the suggestion keeps: `[A-Z0-9\s]`. */
  predicate IsKeptChar(c: char)
  {
    'A' <= c <= 'Z' || '0' <= c <= '9' || IsSpace(c)
  }

  /** `.replace(/[^A-Z0-9\s]/g, '')`. */
  function KeepCodeChars(s: string): (r: string)
    ensures forall i :: 0 <= i < |r| ==> IsKeptChar(r[i])
    ensures forall c :: c in r <==> c in s && IsKeptChar(c)
    ensures IsSubsequence(r, s)
    ensures forall c :: multiset(r)[c] == if IsKeptChar(c) then multiset(s)[c] else 0
  {
    if s == [] then []
    else
      var rest := KeepCodeChars(s[1..]);
      assert s == [s[0]] + s[1..];
      if IsKeptChar(s[0]) then
        assert ([s[0]] + rest)[1..] == rest;
        [s[0]] + rest
      else rest
  }

  /** No two consecutive underscores. */
  predicate NoDoubleUnderscore(s: string)
  {
    forall i :: 0 <= i < |s| - 1 ==> !(s[i] == '_' && s[i + 1] == '_')
  }

  /** `.replace(/\s+/g, '_')`: every maximal run of white space becomes one
      underscore. Applied to kept characters, the result is a code-character
      string without two consecutive underscores. */
  function CollapseSpaces(s: string): (r: string)
    ensures s != [] ==> r != [] && (IsSpace(s[0]) ==> r[0] == '_') && (!IsSpace(s[0]) ==> r[0] == s[0])
    ensures (forall i :: 0 <= i < |s| ==> IsKeptChar(s[i])) ==>
      (forall i :: 0 <= i < |r| ==> IsCodeChar(r[i])) && NoDoubleUnderscore(r)
    decreases |s|
  {
    if s == [] then []
    else if IsSpace(s[0]) then
      var t := TrimStart(s);
      assert |t| < |s|;
      var rest := CollapseSpaces(t);
      assert forall i :: 0 <= i < |t| ==> t[i] == s[|s| - |t| + i];
      assert ("_" + rest)[1..] == rest;
      "_" + rest
    else
      var rest := CollapseSpaces(s[1..]);
      assert ([s[0]] + rest)[1..] == rest;
      [s[0]] + rest
  }

  /** The same replacement read one character at a time, remembering only
      whether the previous character was white space: a white-space
      character that starts a run becomes `_`, one that continues a run
      disappears, and every other character is kept. */
  function CollapseByChar(s: string, afterSpace: bool): (r: string)
    decreases |s|
  {
    if s == [] then []
    else if IsSpace(s[0]) then (if afterSpace then "" else "_") + CollapseByChar(s[1..], true)
    else [s[0]] + CollapseByChar(s[1..], false)
  }

  /** White space continuing a run leaves nothing behind. */
  lemma {:induction false} CollapseByCharSkipsRun(s: string)
    ensures CollapseByChar(s, true) == CollapseByChar(TrimStart(s), true)
    decreases |s|
  {
    if s != [] && IsSpace(s[0]) {
      CollapseByCharSkipsRun(s[1..]);
    }
  }

  /** Run-skipping and character-at-a-time collapsing agree on every string. */
  lemma {:induction false} CollapseSpacesByChar(s: string)
    ensures CollapseSpaces(s) == CollapseByChar(s, false)
    decreases |s|
  {
    if s != [] {
      if IsSpace(s[0]) {
        var t := TrimStart(s);
        assert t == TrimStart(s[1..]);
        CollapseByCharSkipsRun(s[1..]);
        assert CollapseByChar(t, true) == CollapseByChar(t, false);
        CollapseSpacesByChar(t);
      } else {
        CollapseSpacesByChar(s[1..]);
      }
    }
  }

  /** The first `n` characters (`substring(0, n)`). */
  function Take(s: string, n: nat): (r: string)
    ensures |r| <= n && |r| <= |s| && r == s[..|r|]
    ensures |s| >= n ==> |r| == n
  {
    if |s| <= n then s else s[..n]
  }

  /** `generateCodeFromName(name)`: empty for a missing or empty name;
      otherwise the upper-cased name with accents folded, other characters
      dropped, white-space runs turned into `_`, cut to 20 characters. */
  function GenerateCodeFromName(name: Option<string>): (code: string)
    ensures !TruthyText(name) ==> code == ""
    ensures |code| <= 20
    ensures forall i :: 0 <= i < |code| ==> IsCodeChar(code[i])
    ensures NoDoubleUnderscore(code)
  {
    if !TruthyText(name) then ""
    else
      var collapsed := CollapseSpaces(KeepCodeChars(FoldAccents(ToUpper(name.value))));
      var code := Take(collapsed, 20);
      assert forall i :: 0 <= i < |code| ==> code[i] == collapsed[i];
      code
  }

  // ---------------------------------------------------------------------
  // Validation

  /** `isValidColor(color)`: `#` and six hexadecimal digits, in either case. */
  function IsValidColor(color: string): (r: bool)
    ensures r <==> |color| == 7 && color[0] == '#' && forall i :: 1 <= i < 7 ==> DigitIn(color[i], 16).Some?
  {
    |color| == 7 && color[0] == '#' && forall i :: 1 <= i < 7 ==> IsHexDigit(color[i])
  }

  /** Every default colour is a valid colour. */
  lemma DefaultColorsAreValid()
    ensures forall i :: 0 <= i < |DEFAULT_COLORS| ==> IsValidColor(DEFAULT_COLORS[i])
  {
  }

  const CODE_REQUIRED := "Código é obrigatório"
  const CODE_TOO_SHORT := "Código deve ter pelo menos 2 caracteres"
  const CODE_TOO_LONG := "Código deve ter no máximo 50 caracteres"
  const CODE_BAD_CHARS := "Código deve conter apenas letras maiúsculas, números e underscore"

  /** `/^[A-Z0-9_]+$/`. */
  predicate AllCodeChars(s: string)
  {
    |s| > 0 && forall i :: 0 <= i < |s| ==> IsCodeChar(s[i])
  }

  /** The errors `validateCode` reports, in the order it checks them. */
  function CodeErrors(code: Option<string>): (errors: seq<string>)
    ensures !TruthyText(code) ==> errors == [CODE_REQUIRED]
    ensures errors == [] <==> TruthyText(code) && 2 <= |code.value| <= 50 && AllCodeChars(code.value)
    ensures |errors| <= 2
  {
    if !TruthyText(code) then [CODE_REQUIRED]
    else
      var c := code.value;
      (if |c| < 2 then [CODE_TOO_SHORT] else [])
      + (if |c| > 50 then [CODE_TOO_LONG] else [])
      + (if !AllCodeChars(c) then [CODE_BAD_CHARS] else [])
  }

  datatype Validation = Validation(valid: bool, errors: seq<string>)

  /** `validateCode(code)`: collects the errors step by step. */
  method ValidateCode(code: Option<string>) returns (v: Validation)
    ensures v.errors == CodeErrors(code)
    ensures v.valid <==> v.errors == []
    ensures !TruthyText(code) ==> v.errors == [CODE_REQUIRED]
    ensures v.valid <==> TruthyText(code) && 2 <= |code.value| <= 50 && AllCodeChars(code.value)
  {
    var errors: seq<string> := [];
    if code.None? || code.value == "" {
      errors := errors + [CODE_REQUIRED];
    } else {
      var c := code.value;
      if |c| < 2 {
        errors := errors + [CODE_TOO_SHORT];
      }
      if |c| > 50 {
        errors := errors + [CODE_TOO_LONG];
      }
      if !AllCodeChars(c) {
        errors := errors + [CODE_BAD_CHARS];
      }
    }
    v := Validation(|errors| == 0, errors);
  }

  /** A suggested code of at least two characters passes validation. */
  lemma GeneratedCodeIsValid(name: Option<string>)
    requires |GenerateCodeFromName(name)| >= 2
    ensures CodeErrors(Some(GenerateCodeFromName(name))) == []
  {
  }

  // ---------------------------------------------------------------------
  // Display

  /** The fields `formatPermissionForDisplay` adds (the random colour and
      the expiry flag are not modelled). */
  datatype DisplayPermission = DisplayPermission(
    permission: Permission,
    icon: string,
    displayName: string,
    displayCode: string,
    isActive: bool)

  /** A present, non-empty field, or the fallback. */
  function OrDefault(field: Option<string>, fallback: string): (r: string)
    ensures TruthyText(field) ==> r == field.value
    ensures !TruthyText(field) ==> r == fallback
  {
    if field.Some? && field.value != "" then field.value else fallback
  }

  /** `formatPermissionForDisplay(permission)`. */
  function FormatPermissionForDisplay(p: Permission): (d: DisplayPermission)
    ensures d.permission == p
    ensures d.icon != "" && d.displayName != "" && d.displayCode != ""
    ensures d.icon == (if TruthyText(p.icon) then p.icon.value else "card_membership")
    ensures d.displayName == (if TruthyText(p.name) then p.name.value else "Sem nome")
    ensures d.displayCode == (if TruthyText(p.code) then p.code.value else "SEM_CODIGO")
    ensures d.isActive <==> p.isActive != Some(false)
  {
    DisplayPermission(
      p,
      OrDefault(p.icon, "card_membership"),
      OrDefault(p.name, "Sem nome"),
      OrDefault(p.code, "SEM_CODIGO"),
      p.isActive != Some(false))
  }

  function FormatAll(ps: seq<Permission>): (ds: seq<DisplayPermission>)
    ensures |ds| == |ps| && forall i :: 0 <= i < |ps| ==> ds[i] == FormatPermissionForDisplay(ps[i])
  {
    if ps == [] then [] else [FormatPermissionForDisplay(ps[0])] + FormatAll(ps[1..])
  }

  // ---------------------------------------------------------------------
  // Grouping

  /** The key of a group: the institution id, or `'without_institution'`
      when the id is missing or 0. */
  datatype GroupKey = InstitutionKey(id: int) | WithoutInstitution

  function GroupKeyOf(p: Permission): GroupKey
  {
    if p.institutionId.Some? && p.institutionId.value != 0 then InstitutionKey(p.institutionId.value)
    else WithoutInstitution
  }

  function InstitutionName(p: Permission): string
  {
    if p.institution.Some? then OrDefault(p.institution.value.name, "Sem instituição") else "Sem instituição"
  }

  datatype Group = Group(institution: Option<Institution>, institutionName: string, permissions: seq<DisplayPermission>)

  /** The permissions of `ps` with key `k`, in their order. */
  function Members(ps: seq<Permission>, k: GroupKey): (ms: seq<Permission>)
    ensures forall p :: p in ms <==> p in ps && GroupKeyOf(p) == k
    ensures IsSubsequence(ms, ps)
    ensures |ms| <= |ps|
    decreases |ps|
  {
    if ps == [] then []
    else
      var init := ps[..|ps| - 1];
      var last := ps[|ps| - 1];
      assert ps == init + [last];
      var prev := Members(init, k);
      SubsequenceAppend(prev, init, last);
      if GroupKeyOf(last) == k then
        assert IsSubsequence(prev + [last], ps);
        prev + [last]
      else
        assert IsSubsequence(prev, ps);
        prev
  }

  /** Appending the same element, or only to the longer one, keeps a
      subsequence a subsequence. */
  lemma {:induction false} SubsequenceAppend<T>(r: seq<T>, s: seq<T>, x: T)
    requires IsSubsequence(r, s)
    ensures IsSubsequence(r + [x], s + [x]) && IsSubsequence(r, s + [x])
    decreases |s|
  {
    if r == [] {
      SubsequenceReflexive([x]);
      assert r + [x] == [x];
      if s != [] {
        assert IsSubsequence([x], (s + [x])[1..]) by {
          SubsequenceSuffix([x], s[1..] + [x]);
          assert (s + [x])[1..] == s[1..] + [x];
        }
      }
    } else if s == [] {
    } else {
      assert (s + [x])[1..] == s[1..] + [x];
      assert (r + [x])[1..] == r[1..] + [x];
      if r[0] == s[0] && IsSubsequence(r[1..], s[1..]) {
        SubsequenceAppend(r[1..], s[1..], x);
      } else {
        SubsequenceAppend(r, s[1..], x);
      }
    }
  }

  /** `[x]` is a subsequence of every sequence ending in `x`. */
  lemma {:induction false} SubsequenceSuffix<T>(r: seq<T>, s: seq<T>)
    requires |s| > 0 && r == [s[|s| - 1]]
    ensures IsSubsequence(r, s)
    decreases |s|
  {
    if |s| > 1 {
      SubsequenceSuffix(r, s[1..]);
    } else {
      assert s == r;
      SubsequenceReflexive(r);
    }
  }

  /** The group `groupPermissionsByInstitution` builds for key `k`: the
      institution and name of its first member, and every member, formatted,
      in input order. */
  function GroupFor(ps: seq<Permission>, k: GroupKey): Group
    requires Members(ps, k) != []
  {
    var first := Members(ps, k)[0];
    Group(first.institution, InstitutionName(first), FormatAll(Members(ps, k)))
  }

  /** `groupPermissionsByInstitution(permissions)`: one pass that creates a
      group on its key's first permission and appends every permission,
      formatted, to its group. */
  method GroupPermissionsByInstitution(ps: seq<Permission>) returns (groups: map<GroupKey, Group>)
    ensures forall k :: k in groups <==> Members(ps, k) != []
    ensures forall k :: k in groups ==> groups[k] == GroupFor(ps, k)
  {
    groups := map[];
    for i := 0 to |ps|
      invariant GroupsOf(groups, ps[..i])
    {
      var p := ps[i];
      var k := GroupKeyOf(p);
      GroupsStepAt(ps, i, groups);
      if k !in groups {
        groups := groups[k := Group(p.institution, InstitutionName(p), [])];
      }
      groups := groups[k := groups[k].(permissions := groups[k].permissions + [FormatPermissionForDisplay(p)])];
    }
    assert ps[..|ps|] == ps;
  }

  /** `groups` holds exactly the groups of `ps`. */
  ghost predicate GroupsOf(groups: map<GroupKey, Group>, ps: seq<Permission>)
  {
    && (forall k :: k in groups <==> Members(ps, k) != [])
    && (forall k :: k in groups ==> groups[k] == GroupFor(ps, k))
  }

  lemma MembersAppend(ps: seq<Permission>, p: Permission, k: GroupKey)
    ensures Members(ps + [p], k) == Members(ps, k) + (if GroupKeyOf(p) == k then [p] else [])
  {
    assert (ps + [p])[..|ps|] == ps;
  }

  /** The groups after one step of the pass: the permission's group is
      created if needed and the formatted permission appended to it. */
  function AddToGroup(groups: map<GroupKey, Group>, p: Permission): map<GroupKey, Group>
  {
    var k := GroupKeyOf(p);
    var g := if k in groups then groups[k] else Group(p.institution, InstitutionName(p), []);
    groups[k := g.(permissions := g.permissions + [FormatPermissionForDisplay(p)])]
  }

  /** The step of the pass at index `i`. */
  lemma GroupsStepAt(ps: seq<Permission>, i: nat, groups: map<GroupKey, Group>)
    requires i < |ps| && GroupsOf(groups, ps[..i])
    ensures GroupsOf(AddToGroup(groups, ps[i]), ps[..i + 1])
  {
    assert ps[..i + 1] == ps[..i] + [ps[i]];
    GroupsStep(ps[..i], ps[i], groups);
  }

  /** One step of the pass gives the groups of the longer list. */
  lemma GroupsStep(ps: seq<Permission>, p: Permission, before: map<GroupKey, Group>)
    requires GroupsOf(before, ps)
    ensures GroupsOf(AddToGroup(before, p), ps + [p])
  {
    var k := GroupKeyOf(p);
    var after := AddToGroup(before, p);
    forall k'
      ensures k' in after <==> Members(ps + [p], k') != []
      ensures k' in after ==> after[k'] == GroupFor(ps + [p], k')
    {
      MembersAppend(ps, p, k');
      if k' == k {
        GroupsStepOwnGroup(ps, p, before);
      } else {
        assert Members(ps + [p], k') == Members(ps, k');
      }
    }
  }

  /** The group of the appended permission. */
  lemma GroupsStepOwnGroup(ps: seq<Permission>, p: Permission, before: map<GroupKey, Group>)
    requires GroupsOf(before, ps)
    ensures Members(ps + [p], GroupKeyOf(p)) != []
    ensures GroupKeyOf(p) in AddToGroup(before, p)
    ensures AddToGroup(before, p)[GroupKeyOf(p)] == GroupFor(ps + [p], GroupKeyOf(p))
  {
    var k := GroupKeyOf(p);
    MembersAppend(ps, p, k);
    var ms := Members(ps, k);
    FormatAllAppend(ms, p);
    if ms == [] {
      assert k !in before;
      assert Members(ps + [p], k) == [p];
      assert FormatAll([p]) == [FormatPermissionForDisplay(p)];
    } else {
      assert before[k] == GroupFor(ps, k);
      assert Members(ps + [p], k)[0] == ms[0];
    }
  }

  lemma FormatAllAppend(ms: seq<Permission>, p: Permission)
    ensures FormatAll(ms + [p]) == FormatAll(ms) + [FormatPermissionForDisplay(p)]
  {
    var a := FormatAll(ms + [p]);
    var b := FormatAll(ms) + [FormatPermissionForDisplay(p)];
    assert |a| == |b|;
    forall i | 0 <= i < |a|
      ensures a[i] == b[i]
    {
      if i < |ms| {
        assert (ms + [p])[i] == ms[i];
      }
    }
  }

  /** Every permission lands in exactly one group, the one of its key. */
  lemma GroupsPartition(ps: seq<Permission>, p: Permission, k: GroupKey)
    requires p in ps
    ensures p in Members(ps, k) <==> k == GroupKeyOf(p)
    ensures Members(ps, GroupKeyOf(p)) != []
  {
  }

  /** The sizes of the groups of a list of distinct keys. */
  function SizesOf(ps: seq<Permission>, keys: seq<GroupKey>): nat
  {
    if keys == [] then 0 else |Members(ps, keys[0])| + SizesOf(ps, keys[1..])
  }

  /** One more permission adds one to the sizes when its key is listed. */
  lemma {:induction false} SizesOfAppend(ps: seq<Permission>, p: Permission, keys: seq<GroupKey>)
    requires NoDuplicates(keys)
    ensures SizesOf(ps + [p], keys) == SizesOf(ps, keys) + (if GroupKeyOf(p) in keys then 1 else 0)
    decreases |keys|
  {
    if keys != [] {
      assert (ps + [p])[..|ps + [p]| - 1] == ps;
      assert keys == [keys[0]] + keys[1..];
      NoDuplicatesCons(keys[0], keys[1..]);
      SizesOfAppend(ps, p, keys[1..]);
    }
  }

  /** The group sizes add up to the number of permissions. */
  lemma {:induction false} GroupSizesSum(ps: seq<Permission>, keys: seq<GroupKey>)
    requires NoDuplicates(keys)
    requires forall i :: 0 <= i < |ps| ==> GroupKeyOf(ps[i]) in keys
    ensures SizesOf(ps, keys) == |ps|
    decreases |ps|
  {
    if ps == [] {
      SizesOfEmpty(keys);
    } else {
      var init := ps[..|ps| - 1];
      assert ps == init + [ps[|ps| - 1]];
      GroupSizesSum(init, keys);
      SizesOfAppend(init, ps[|ps| - 1], keys);
    }
  }

  lemma {:induction false} SizesOfEmpty(keys: seq<GroupKey>)
    ensures SizesOf([], keys) == 0
    decreases |keys|
  {
    if keys != [] {
      SizesOfEmpty(keys[1..]);
    }
  }

  // ---------------------------------------------------------------------
  // Search

  /** `field?.toLowerCase().includes(term)`. */
  predicate FieldMatches(field: Option<string>, term: string)
  {
    field.Some? && Contains(ToLower(field.value), term)
  }

  /** Name, code, description or institution name contains the term. */
  predicate MatchesTerm(p: Permission, term: string)
  {
    || FieldMatches(p.name, term)
    || FieldMatches(p.code, term)
    || FieldMatches(p.description, term)
    || (p.institution.Some? && FieldMatches(p.institution.value.name, term))
  }

  /** The permissions that match, in their order. */
  function Matching(ps: seq<Permission>, term: string): (r: seq<Permission>)
    ensures forall p :: p in r <==> p in ps && MatchesTerm(p, term)
    ensures IsSubsequence(r, ps)
    ensures forall q :: multiset(r)[q] == if MatchesTerm(q, term) then multiset(ps)[q] else 0
    decreases |ps|
  {
    if ps == [] then []
    else
      var rest := Matching(ps[1..], term);
      assert ps == [ps[0]] + ps[1..];
      if MatchesTerm(ps[0], term) then
        assert ([ps[0]] + rest)[1..] == rest;
        [ps[0]] + rest
      else rest
  }

  /** `filterPermissions(permissions, searchTerm)`. */
  function FilterPermissions(ps: seq<Permission>, searchTerm: Option<string>): (r: seq<Permission>)
    ensures IsSubsequence(r, ps)
    ensures forall q :: multiset(r)[q] <= multiset(ps)[q]
  {
    if !TruthyText(searchTerm) || Trim(searchTerm.value) == "" then
      SubsequenceReflexive(ps);
      ps
    else Matching(ps, Trim(ToLower(searchTerm.value)))
  }

  /** A missing, empty or blank term returns the list as it is; any other
      term keeps, in order, exactly the permissions matching the
      lower-cased, trimmed term. */
  lemma FilterPermissionsSpec(ps: seq<Permission>, searchTerm: Option<string>)
    ensures !TruthyText(searchTerm) || Trim(searchTerm.value) == "" ==> FilterPermissions(ps, searchTerm) == ps
    ensures TruthyText(searchTerm) && Trim(searchTerm.value) != "" ==>
      var term := Trim(ToLower(searchTerm.value));
      && IsSubsequence(FilterPermissions(ps, searchTerm), ps)
      && (forall p :: p in FilterPermissions(ps, searchTerm) <==> p in ps && MatchesTerm(p, term))
      && forall q :: multiset(FilterPermissions(ps, searchTerm))[q] == if MatchesTerm(q, term) then multiset(ps)[q] else 0
  {
  }

  /** Filtering twice with the same term is filtering once. */
  lemma {:induction false} MatchingIdempotent(ps: seq<Permission>, term: string)
    ensures Matching(Matching(ps, term), term) == Matching(ps, term)
    decreases |ps|
  {
    if ps != [] {
      MatchingIdempotent(ps[1..], term);
      if MatchesTerm(ps[0], term) {
        var r := Matching(ps, term);
        assert r[0] == ps[0] && r[1..] == Matching(ps[1..], term);
      }
    }
  }

  lemma FilterPermissionsIdempotent(ps: seq<Permission>, searchTerm: Option<string>)
    ensures FilterPermissions(FilterPermissions(ps, searchTerm), searchTerm) == FilterPermissions(ps, searchTerm)
  {
    if TruthyText(searchTerm) && Trim(searchTerm.value) != "" {
      MatchingIdempotent(ps, Trim(ToLower(searchTerm.value)));
    }
  }

  // ---------------------------------------------------------------------
  // Ordering

  /** The keys `sortPermissions` supports here. */
  datatype SortBy = ByName | ByCode | ByUsersCount

  /** A comparison value: lower-cased text or a count. */
  datatype SortValue = Text(text: string) | Count(count: int)

  function LowerOrEmpty(field: Option<string>): string
  {
    if field.Some? then ToLower(field.value) else ""
  }

  /** The value compared for one permission. */
  function SortValueOf(p: Permission, key: SortBy): SortValue
  {
    match key
    case ByName => Text(LowerOrEmpty(p.name))
    case ByCode => Text(LowerOrEmpty(p.code))
    case ByUsersCount => Count(if p.usersCount.Some? then p.usersCount.value else 0)
  }

  /** JavaScript's `<` on strings: code unit by code unit, a proper prefix
      first. */
  predicate LexLess(a: string, b: string)
    decreases |a|
  {
    if a == [] then b != []
    else if b == [] then false
    else a[0] < b[0] || (a[0] == b[0] && LexLess(a[1..], b[1..]))
  }

  /** `<` on comparison values (a key never mixes texts and counts). */
  predicate Less(u: SortValue, v: SortValue)
  {
    match (u, v)
    case (Text(a), Text(b)) => LexLess(a, b)
    case (Count(m), Count(n)) => m < n
    case (Count(_), Text(_)) => true
    case (Text(_), Count(_)) => false
  }

  lemma {:induction false} LexLessIrreflexive(a: string)
    ensures !LexLess(a, a)
    decreases |a|
  {
    if a != [] {
      LexLessIrreflexive(a[1..]);
    }
  }

  lemma {:induction false} LexLessTransitive(a: string, b: string, c: string)
    requires LexLess(a, b) && LexLess(b, c)
    ensures LexLess(a, c)
    decreases |a|
  {
    if a != [] && a[0] == b[0] && b[0] == c[0] {
      LexLessTransitive(a[1..], b[1..], c[1..]);
    }
  }

  lemma {:induction false} LexLessTotal(a: string, b: string)
    requires a != b
    ensures LexLess(a, b) || LexLess(b, a)
    decreases |a|
  {
    if a != [] && b != [] && a[0] == b[0] {
      assert a == [a[0]] + a[1..] && b == [b[0]] + b[1..];
      LexLessTotal(a[1..], b[1..]);
    }
  }

  lemma LessIrreflexive(u: SortValue)
    ensures !Less(u, u)
  {
    if u.Text? {
      LexLessIrreflexive(u.text);
    }
  }

  lemma LessTransitive(u: SortValue, v: SortValue, w: SortValue)
    requires Less(u, v) && Less(v, w)
    ensures Less(u, w)
  {
    if u.Text? && v.Text? && w.Text? {
      LexLessTransitive(u.text, v.text, w.text);
    }
  }

  lemma LessTotal(u: SortValue, v: SortValue)
    requires u != v
    ensures Less(u, v) || Less(v, u)
  {
    if u.Text? && v.Text? {
      LexLessTotal(u.text, v.text);
    }
  }

  /** `a` sorts strictly before `b`: the comparator returns a negative number. */
  predicate Precedes(a: Permission, b: Permission, key: SortBy, ascending: bool)
  {
    if ascending then Less(SortValueOf(a, key), SortValueOf(b, key))
    else Less(SortValueOf(b, key), SortValueOf(a, key))
  }

  /** Sorting strictly before is irreflexive on comparison values. */
  lemma PrecedesNotEqual(a: Permission, b: Permission, key: SortBy, ascending: bool)
    requires Precedes(a, b, key, ascending)
    ensures SortValueOf(a, key) != SortValueOf(b, key)
    ensures !Precedes(b, a, key, ascending)
  {
    LessIrreflexive(SortValueOf(a, key));
    LessIrreflexive(SortValueOf(b, key));
    if Precedes(b, a, key, ascending) {
      if ascending {
        LessTransitive(SortValueOf(a, key), SortValueOf(b, key), SortValueOf(a, key));
      } else {
        LessTransitive(SortValueOf(b, key), SortValueOf(a, key), SortValueOf(b, key));
      }
    }
  }

  /** If `x` sorts before `a` and `b` does not sort before `a`, then `x`
      sorts before `b`. */
  lemma PrecedesExtends(x: Permission, a: Permission, b: Permission, key: SortBy, ascending: bool)
    requires Precedes(x, a, key, ascending) && !Precedes(b, a, key, ascending)
    ensures Precedes(x, b, key, ascending)
  {
    var u, v, w := SortValueOf(x, key), SortValueOf(a, key), SortValueOf(b, key);
    if v != w {
      LessTotal(v, w);
      if ascending {
        LessTransitive(u, v, w);
      } else {
        LessTransitive(w, v, u);
      }
    }
  }

  /** Ordered: no element sorts strictly before an earlier one. */
  predicate Sorted(s: seq<Permission>, key: SortBy, ascending: bool)
  {
    forall i, j :: 0 <= i < j < |s| ==> !Precedes(s[j], s[i], key, ascending)
  }

  lemma SortedTail(s: seq<Permission>, key: SortBy, ascending: bool)
    requires Sorted(s, key, ascending) && s != []
    ensures Sorted(s[1..], key, ascending)
    ensures forall e :: e in s[1..] ==> !Precedes(e, s[0], key, ascending)
  {
    forall i, j | 0 <= i < j < |s| - 1
      ensures !Precedes(s[1..][j], s[1..][i], key, ascending)
    {
      assert s[1..][i] == s[i + 1] && s[1..][j] == s[j + 1];
    }
    forall e | e in s[1..]
      ensures !Precedes(e, s[0], key, ascending)
    {
      var k :| 0 <= k < |s| - 1 && s[1..][k] == e;
      assert s[k + 1] == e;
    }
  }

  /** The elements of `s` whose comparison value is `v`, in order. */
  function Ties(s: seq<Permission>, key: SortBy, v: SortValue): seq<Permission>
  {
    if s == [] then []
    else TieOf(s[0], key, v) + Ties(s[1..], key, v)
  }

  /** `x` inserted into sorted `s` after every element that does not sort
      strictly after it. */
  function Insert(x: Permission, s: seq<Permission>, key: SortBy, ascending: bool): (r: seq<Permission>)
    ensures multiset(r) == multiset(s) + multiset{x}
    ensures forall e :: e in r <==> e == x || e in s
    decreases |s|
  {
    if s == [] then [x]
    else if Precedes(x, s[0], key, ascending) then [x] + s
    else
      assert s == [s[0]] + s[1..];
      [s[0]] + Insert(x, s[1..], key, ascending)
  }

  /** A stable sort: insertion of each element, left to right. */
  function Sort(s: seq<Permission>, key: SortBy, ascending: bool): (r: seq<Permission>)
    ensures multiset(r) == multiset(s)
    decreases |s|
  {
    if s == [] then []
    else
      assert s == s[..|s| - 1] + [s[|s| - 1]];
      Insert(s[|s| - 1], Sort(s[..|s| - 1], key, ascending), key, ascending)
  }

  /** `sortPermissions(permissions, sortBy, sortOrder)`: ascending for
      `'asc'`, descending for anything else, on a copy. */
  function SortPermissions(ps: seq<Permission>, key: SortBy, sortOrder: string): (r: seq<Permission>)
    ensures multiset(r) == multiset(ps) && |r| == |ps|
  {
    var sorted := Sort(ps, key, sortOrder == "asc");
    assert |multiset(sorted)| == |sorted| && |multiset(ps)| == |ps|;
    sorted
  }

  /** An element that sorts before the head of a sorted list sorts before
      all of it, and shares its comparison value with none of it. */
  lemma PrecedesAll(x: Permission, s: seq<Permission>, key: SortBy, ascending: bool)
    requires Sorted(s, key, ascending) && s != [] && Precedes(x, s[0], key, ascending)
    ensures forall i :: 0 <= i < |s| ==> Precedes(x, s[i], key, ascending)
    ensures forall i :: 0 <= i < |s| ==> SortValueOf(s[i], key) != SortValueOf(x, key)
  {
    forall i | 0 <= i < |s|
      ensures Precedes(x, s[i], key, ascending)
      ensures SortValueOf(s[i], key) != SortValueOf(x, key)
    {
      if i > 0 {
        PrecedesExtends(x, s[0], s[i], key, ascending);
      }
      PrecedesNotEqual(x, s[i], key, ascending);
    }
  }

  /** Inserting into a sorted list keeps it sorted. */
  lemma {:induction false} InsertSorted(x: Permission, s: seq<Permission>, key: SortBy, ascending: bool)
    requires Sorted(s, key, ascending)
    ensures Sorted(Insert(x, s, key, ascending), key, ascending)
    decreases |s|
  {
    if s == [] {
    } else if Precedes(x, s[0], key, ascending) {
      assert Insert(x, s, key, ascending) == [x] + s;
      SortedFront(x, s, key, ascending);
    } else {
      var tail := Insert(x, s[1..], key, ascending);
      assert Insert(x, s, key, ascending) == [s[0]] + tail;
      SortedTail(s, key, ascending);
      InsertSorted(x, s[1..], key, ascending);
      SortedCons(s[0], tail, key, ascending);
    }
  }

  /** An element that sorts before the head of a sorted list can lead it. */
  lemma SortedFront(x: Permission, s: seq<Permission>, key: SortBy, ascending: bool)
    requires Sorted(s, key, ascending) && s != [] && Precedes(x, s[0], key, ascending)
    ensures Sorted([x] + s, key, ascending)
  {
    PrecedesAll(x, s, key, ascending);
    var r := [x] + s;
    forall i, j | 0 <= i < j < |r|
      ensures !Precedes(r[j], r[i], key, ascending)
    {
      assert r[j] == s[j - 1];
      if i > 0 {
        assert r[i] == s[i - 1];
      } else {
        PrecedesNotEqual(x, s[j - 1], key, ascending);
      }
    }
  }

  /** An element that nothing in a sorted list sorts before can lead it. */
  lemma SortedCons(e: Permission, t: seq<Permission>, key: SortBy, ascending: bool)
    requires Sorted(t, key, ascending)
    requires forall a :: a in t ==> !Precedes(a, e, key, ascending)
    ensures Sorted([e] + t, key, ascending)
  {
    var r := [e] + t;
    forall i, j | 0 <= i < j < |r|
      ensures !Precedes(r[j], r[i], key, ascending)
    {
      assert r[j] == t[j - 1];
      if i > 0 {
        assert r[i] == t[i - 1];
      } else {
        assert r[j] in t;
      }
    }
  }

  lemma {:induction false} TiesNone(s: seq<Permission>, key: SortBy, v: SortValue)
    requires forall i :: 0 <= i < |s| ==> SortValueOf(s[i], key) != v
    ensures Ties(s, key, v) == []
    decreases |s|
  {
    if s != [] {
      TiesNone(s[1..], key, v);
    }
  }

  /** Inserting into a sorted list puts the new element after every element
      with the same comparison value. */
  lemma {:induction false} InsertTies(x: Permission, s: seq<Permission>, key: SortBy, ascending: bool, v: SortValue)
    requires Sorted(s, key, ascending)
    ensures Ties(Insert(x, s, key, ascending), key, v) == Ties(s, key, v) + TieOf(x, key, v)
    decreases |s|
  {
    if s == [] {
      TiesCons(x, [], key, v);
    } else if Precedes(x, s[0], key, ascending) {
      assert Insert(x, s, key, ascending) == [x] + s;
      TiesBeforeAll(x, s, key, ascending, v);
    } else {
      SortedTail(s, key, ascending);
      InsertTies(x, s[1..], key, ascending, v);
      InsertTiesStep(x, s, key, ascending, v);
    }
  }

  /** The elements of `[x]` whose comparison value is `v`. */
  function TieOf(x: Permission, key: SortBy, v: SortValue): seq<Permission>
  {
    if SortValueOf(x, key) == v then [x] else []
  }

  /** Insertion past the head keeps the head in front of the ties. */
  lemma InsertTiesStep(x: Permission, s: seq<Permission>, key: SortBy, ascending: bool, v: SortValue)
    requires s != [] && !Precedes(x, s[0], key, ascending)
    requires Ties(Insert(x, s[1..], key, ascending), key, v) == Ties(s[1..], key, v) + TieOf(x, key, v)
    ensures Ties(Insert(x, s, key, ascending), key, v) == Ties(s, key, v) + TieOf(x, key, v)
  {
    var head, rest := s[0], s[1..];
    var tail := Insert(x, rest, key, ascending);
    InsertPastHead(x, s, key, ascending);
    TiesConsBoth(head, rest, tail, key, v, TieOf(x, key, v));
    assert [head] + rest == s;
  }

  /** Insertion past the head of a list keeps the head in front. */
  lemma InsertPastHead(x: Permission, s: seq<Permission>, key: SortBy, ascending: bool)
    requires s != [] && !Precedes(x, s[0], key, ascending)
    ensures Insert(x, s, key, ascending) == [s[0]] + Insert(x, s[1..], key, ascending)
  {
  }

  /** Putting the same element in front of two lists keeps a relation
      between their ties. */
  lemma TiesConsBoth(e: Permission, t: seq<Permission>, u: seq<Permission>, key: SortBy, v: SortValue, extra: seq<Permission>)
    requires Ties(u, key, v) == Ties(t, key, v) + extra
    ensures Ties([e] + u, key, v) == Ties([e] + t, key, v) + extra
  {
    TiesCons(e, t, key, v);
    TiesCons(e, u, key, v);
  }

  /** An element placed before a sorted list it sorts strictly before comes
      after the list's ties with it. */
  lemma TiesBeforeAll(x: Permission, s: seq<Permission>, key: SortBy, ascending: bool, v: SortValue)
    requires Sorted(s, key, ascending) && s != [] && Precedes(x, s[0], key, ascending)
    ensures Ties([x] + s, key, v) == Ties(s, key, v) + TieOf(x, key, v)
  {
    TiesCons(x, s, key, v);
    if SortValueOf(x, key) == v {
      PrecedesAll(x, s, key, ascending);
      TiesNone(s, key, v);
    }
  }

  lemma TiesCons(e: Permission, t: seq<Permission>, key: SortBy, v: SortValue)
    ensures Ties([e] + t, key, v) == TieOf(e, key, v) + Ties(t, key, v)
  {
    assert ([e] + t)[1..] == t;
  }

  lemma {:induction false} TiesAppend(s: seq<Permission>, x: Permission, key: SortBy, v: SortValue)
    ensures Ties(s + [x], key, v) == Ties(s, key, v) + TieOf(x, key, v)
    decreases |s|
  {
    if s == [] {
      assert Ties([x], key, v) == TieOf(x, key, v) + Ties([], key, v);
    } else {
      assert (s + [x])[1..] == s[1..] + [x];
      TiesAppend(s[1..], x, key, v);
    }
  }

  /** The sort returns a sorted permutation of its input that keeps the
      input order among elements with equal comparison values. */
  lemma {:induction false} SortCorrect(s: seq<Permission>, key: SortBy, ascending: bool)
    ensures multiset(Sort(s, key, ascending)) == multiset(s)
    ensures Sorted(Sort(s, key, ascending), key, ascending)
    ensures forall v :: Ties(Sort(s, key, ascending), key, v) == Ties(s, key, v)
    decreases |s|
  {
    if s != [] {
      var init := s[..|s| - 1];
      var last := s[|s| - 1];
      assert s == init + [last];
      SortCorrect(init, key, ascending);
      InsertSorted(last, Sort(init, key, ascending), key, ascending);
      forall v
        ensures Ties(Sort(s, key, ascending), key, v) == Ties(s, key, v)
      {
        InsertTies(last, Sort(init, key, ascending), key, ascending, v);
        TiesAppend(init, last, key, v);
      }
    }
  }

  /** `sortPermissions` returns a permutation of its input, ordered by the
      chosen key (ascending exactly for `'asc'`), stable among equal keys. */
  lemma SortPermissionsSpec(ps: seq<Permission>, key: SortBy, sortOrder: string)
    ensures multiset(SortPermissions(ps, key, sortOrder)) == multiset(ps)
    ensures Sorted(SortPermissions(ps, key, sortOrder), key, sortOrder == "asc")
    ensures forall v :: Ties(SortPermissions(ps, key, sortOrder), key, v) == Ties(ps, key, v)
  {
    SortCorrect(ps, key, sortOrder == "asc");
  }

  // ---------------------------------------------------------------------
  // Statistics

  predicate CountsAsActive(p: Permission) { p.isActive != Some(false) }
  predicate HasUsers(p: Permission) { p.usersCount.Some? && p.usersCount.value > 0 }
  predicate HasRoutes(p: Permission) { p.routesCount.Some? && p.routesCount.value > 0 }

  /** The number of permissions satisfying `f`. */
  function CountWhere(ps: seq<Permission>, f: Permission -> bool): (n: nat)
    ensures n <= |ps|
    ensures (forall i :: 0 <= i < |ps| ==> f(ps[i])) ==> n == |ps|
    ensures (forall i :: 0 <= i < |ps| ==> !f(ps[i])) ==> n == 0
    decreases |ps|
  {
    if ps == [] then 0
    else (if f(ps[0]) then 1 else 0) + CountWhere(ps[1..], f)
  }

  /** `Math.round(part / total * 100)`, computed exactly: 100 * part / total
      rounded half up; 0 for an empty list. */
  function Percentage(part: nat, total: nat): (r: nat)
    requires part <= total
    ensures total == 0 ==> r == 0
    ensures total > 0 ==> r <= 100
    ensures total > 0 ==> 2 * total * r <= 200 * part + total < 2 * total * (r + 1)
  {
    if total == 0 then 0
    else
      RoundedQuotient(200 * part + total, 2 * total);
      assert 200 * part + total < 2 * total * 101;
      (200 * part + total) / (2 * total)
  }

  /** The quotient of a division by a positive number is the largest
      multiple that fits. */
  lemma RoundedQuotient(n: nat, d: nat)
    requires d > 0
    ensures d * (n / d) <= n < d * (n / d + 1)
    ensures forall k: nat {:trigger d * k} :: n < d * k ==> n / d < k
  {
    forall k: nat | n < d * k
      ensures n / d < k
    {
      if n / d >= k {
        MultiplyMonotone(d, k, n / d);
      }
    }
  }

  lemma MultiplyMonotone(d: nat, a: nat, b: nat)
    requires a <= b
    ensures d * a <= d * b
  {
  }

  datatype Stats = Stats(
    total: nat, active: nat, inactive: nat, withUsers: nat, withRoutes: nat,
    activePercentage: nat, utilizationPercentage: nat)

  /** `calculatePermissionStats(permissions)`. */
  function CalculatePermissionStats(ps: seq<Permission>): (s: Stats)
    ensures s.total == |ps| && s.active + s.inactive == s.total
    ensures s.active == CountWhere(ps, CountsAsActive)
    ensures s.withUsers == CountWhere(ps, HasUsers) && s.withRoutes == CountWhere(ps, HasRoutes)
    ensures s.withUsers <= s.total && s.withRoutes <= s.total
    ensures s.activePercentage <= 100 && s.utilizationPercentage <= 100
    ensures ps == [] ==> s.activePercentage == 0 && s.utilizationPercentage == 0
    ensures (forall i :: 0 <= i < |ps| ==> ps[i].isActive.None?) ==> s.active == s.total
  {
    var total := |ps|;
    var active := CountWhere(ps, CountsAsActive);
    var withUsers := CountWhere(ps, HasUsers);
    Stats(total, active, total - active, withUsers, CountWhere(ps, HasRoutes),
      Percentage(active, total), Percentage(withUsers, total))
  }
}

=== FILE: router_guard.dfy ===
/** The global navigation guard (src/router/index.ts) and the route table it
    guards (src/router/routes.ts). */
module RouterGuard {
  import opened Values
  import opened Text
  import opened AuthStore

  /** The `meta` of one matched route record: `requiresAuth` and `roles` when
      the record declares them. */
  datatype RouteMeta = RouteMeta(requiresAuth: Option<bool>, roles: Option<seq<string>>)

  /** The destination of a navigation: its path, its full path (path, query
      and hash) and the metadata of every record it matched, outermost first. */
  datatype Destination = Destination(path: string, fullPath: string, matched: seq<RouteMeta>)

  /** The one call the guard makes to `next`. */
  datatype NextCall =
    | Proceed                         // next()
    | RedirectTo(path: string)        // next(path)
    | LoginRedirect(redirect: string) // next({ path: '/auth/login', query: { redirect } })

  /** The guard's answer, and whether it showed the "no permission" notice. */
  datatype Decision = Decision(next: NextCall, notified: bool)

  const LANDING := "/dashboard"
  const LOGIN := "/auth/login"

  /** A page needs a session when some matched record does not opt out
      with `requiresAuth: false`; a record that says nothing protects it. */
  function RequiresAuth(matched: seq<RouteMeta>): (r: bool)
    ensures r ==> matched != []
    ensures (exists i :: 0 <= i < |matched| && matched[i].requiresAuth.None?) ==> r
    ensures (exists i :: 0 <= i < |matched| && matched[i].requiresAuth == Some(true)) ==> r
    ensures (forall i :: 0 <= i < |matched| ==> matched[i].requiresAuth == Some(false)) ==> !r
  {
    exists i :: 0 <= i < |matched| && matched[i].requiresAuth != Some(false)
  }

  /** The roles of every matched record that declares some, in order. */
  function RequiredRoles(matched: seq<RouteMeta>): (roles: seq<string>)
    ensures forall r :: r in roles <==> exists i :: 0 <= i < |matched| && matched[i].roles.Some? && r in matched[i].roles.value
  {
    if matched == [] then []
    else
      var rest := RequiredRoles(matched[1..]);
      assert forall i :: 1 <= i < |matched| ==> matched[i] == matched[1..][i - 1];
      (if matched[0].roles.Some? then matched[0].roles.value else []) + rest
  }

  /** Whether the current role is among the required ones. */
  predicate RoleAllowed(role: Option<string>, required: seq<string>)
  {
    role.Some? && role.value in required
  }

  /** The guard's checks, in order, once the session has been initialised:
      auth pages are closed to authenticated users; protected pages need a
      session, and the destination is kept as the return target ("/" becomes
      the landing page); a protected page with required roles needs one of
      them, else the notice is shown and the user sent to the landing page. */
  function Decide(to: Destination, isAuthenticated: bool, role: Option<string>): (d: Decision)
    ensures StartsWith(to.path, "/auth") && isAuthenticated ==> d == Decision(RedirectTo(LANDING), false)
    ensures d.notified ==> isAuthenticated && d.next == RedirectTo(LANDING)
    ensures d.next.LoginRedirect? ==> !isAuthenticated && RequiresAuth(to.matched) && d.next.redirect != "/"
    ensures !RequiresAuth(to.matched) && !StartsWith(to.path, "/auth") ==> d == Decision(Proceed, false)
  {
    if StartsWith(to.path, "/auth") && isAuthenticated then
      Decision(RedirectTo(LANDING), false)
    else if RequiresAuth(to.matched) && !isAuthenticated then
      Decision(LoginRedirect(if to.fullPath != "/" then to.fullPath else LANDING), false)
    else if RequiresAuth(to.matched) && isAuthenticated
      && |RequiredRoles(to.matched)| > 0 && !RoleAllowed(role, RequiredRoles(to.matched)) then
      Decision(RedirectTo(LANDING), true)
    else
      Decision(Proceed, false)
  }

  /** Navigation proceeds exactly when no check objects. */
  lemma DecideProceedsIff(to: Destination, isAuthenticated: bool, role: Option<string>)
    ensures Decide(to, isAuthenticated, role).next == Proceed <==>
      && !(StartsWith(to.path, "/auth") && isAuthenticated)
      && (RequiresAuth(to.matched) ==> isAuthenticated)
      && (RequiresAuth(to.matched) && |RequiredRoles(to.matched)| > 0 ==> RoleAllowed(role, RequiredRoles(to.matched)))
  {
  }

  /** The notice is shown exactly when an authenticated user lacks every
      required role of a protected page that is not an auth page. */
  lemma NoticeIffRoleDenied(to: Destination, isAuthenticated: bool, role: Option<string>)
    ensures Decide(to, isAuthenticated, role).notified <==>
      && !StartsWith(to.path, "/auth")
      && isAuthenticated && RequiresAuth(to.matched)
      && |RequiredRoles(to.matched)| > 0 && !RoleAllowed(role, RequiredRoles(to.matched))
  {
  }

  /** Without a session, every protected page leads to the login page, and
      the return target is the destination itself. */
  lemma AnonymousProtectedGoesToLogin(to: Destination, role: Option<string>)
    requires RequiresAuth(to.matched)
    ensures Decide(to, false, role) ==
      Decision(LoginRedirect(if to.fullPath == "/" then LANDING else to.fullPath), false)
  {
  }

  /** A page that requires the role "admin" refuses a user whose role is
      "user": the notice is shown and the user stays on the landing page. */
  lemma AdminPageRefusesUser(path: string, fullPath: string)
    requires !StartsWith(path, "/auth")
    ensures Decide(Destination(path, fullPath, [RouteMeta(None, Some(["admin"]))]), true, Some("user"))
      == Decision(RedirectTo(LANDING), true)
  {
    var to := Destination(path, fullPath, [RouteMeta(None, Some(["admin"]))]);
    assert to.matched[0].requiresAuth != Some(false);
    assert RequiredRoles(to.matched) == ["admin"];
  }

  /** How the guard's call `authStore.initAuth()` ends. The store defines no
      such action, so nothing is known of what a returning call would do; the
      model lets it return without touching the session. */
  datatype InitAuth = InitAuthReturns | InitAuthThrows

  /** `beforeEach(to, from, next)`, with the store's `initialized` flag and
      the outcome of `initAuth()` as inputs: an uninitialised store whose
      `initAuth` throws is cleared; the checks of `Decide` then run on the
      session as it stands. */
  method BeforeEach(store: Store, to: Destination, initialized: bool, initAuth: InitAuth) returns (d: Decision)
    modifies store`user, store`token, store.storage
    ensures !initialized && initAuth == InitAuthThrows ==>
      store.Cleared() && store.storage.items == old(store.storage.items) - {TOKEN_KEY}
    ensures initialized || initAuth == InitAuthReturns ==>
      store.user == old(store.user) && store.token == old(store.token) && store.storage.items == old(store.storage.items)
    ensures old(store.Synced()) ==> store.Synced()
    ensures d == Decide(to, store.IsAuthenticated(), store.UserRole())
  {
    if !initialized && initAuth == InitAuthThrows {
      store.ClearAuth();
    }
    d := Decide(to, store.IsAuthenticated(), store.UserRole());
  }

  /** The guard against the store as it is: `initialized` is undefined and
      `initAuth` is not a function, so every navigation first clears the
      session and is then decided as an anonymous one. */
  method ShippedBeforeEach(store: Store, to: Destination) returns (d: Decision)
    modifies store`user, store`token, store.storage
    ensures store.Cleared() && !store.IsAuthenticated()
    ensures store.storage.items == old(store.storage.items) - {TOKEN_KEY}
    ensures d == Decide(to, false, None)
  {
    d := BeforeEach(store, to, false, InitAuthThrows);
  }

  /** The destination `/dashboard`, matched by the layout record and its
      `dashboard` child, neither of which declares any meta. */
  const DASHBOARD := Destination("/dashboard", "/dashboard", [RouteMeta(None, None), RouteMeta(None, None)])

  /** Against the store as it is, a user who has just logged in and opens the
      dashboard is sent back to the login page, because the guard first
      clears the session. */
  lemma LoggedInUserIsSentToLogin()
    ensures Decide(DASHBOARD, false, None) == Decision(LoginRedirect("/dashboard"), false)
  {
    assert DASHBOARD.matched[0].requiresAuth != Some(false);
  }

  /** A guard that leaves an authenticated session alone lets it through to
      every protected page outside `/auth` that declares no roles. */
  lemma SessionReachesUnrestrictedPages(to: Destination, role: Option<string>)
    requires !StartsWith(to.path, "/auth")
    requires RequiredRoles(to.matched) == []
    ensures Decide(to, true, role) == Decision(Proceed, false)
  {
  }

  /** With an initialised store, a logged-in user reaches the dashboard and
      stays logged in. */
  method InitializedGuardKeepsSession(store: Store) returns (d: Decision)
    requires store.IsAuthenticated()
    modifies store`user, store`token, store.storage
    ensures d == Decision(Proceed, false) && store.IsAuthenticated()
  {
    d := BeforeEach(store, DASHBOARD, true, InitAuthReturns);
    assert RequiredRoles(DASHBOARD.matched) == [];
    assert DASHBOARD.path[..5][1] != "/auth"[1];
    SessionReachesUnrestrictedPages(DASHBOARD, store.UserRole());
  }

  /** The destination `/auth/login` as the route table defines it: the
      `/auth` layout record and its `login` child, neither with any meta. */
  const LOGIN_PAGE := Destination(LOGIN, LOGIN, [RouteMeta(None, None), RouteMeta(None, None)])

  /** As written, the login page itself requires a session (no record says
      `requiresAuth: false`), so an anonymous visit is redirected to the
      login page again, with the login page as its return target. */
  lemma LoginPageRequiresSession()
    ensures RequiresAuth(LOGIN_PAGE.matched)
    ensures Decide(LOGIN_PAGE, false, None) == Decision(LoginRedirect(LOGIN), false)
  {
    assert LOGIN_PAGE.matched[0].requiresAuth != Some(false);
  }

  /** The login page as intended: the `/auth` record is public. */
  const PUBLIC_LOGIN_PAGE := Destination(LOGIN, LOGIN, [RouteMeta(Some(false), None), RouteMeta(Some(false), None)])

  /** With the `/auth` records public, an anonymous visitor reaches the
      login page, while an authenticated one is sent to the landing page. */
  lemma PublicLoginPageProceeds(role: Option<string>)
    ensures !RequiresAuth(PUBLIC_LOGIN_PAGE.matched)
    ensures Decide(PUBLIC_LOGIN_PAGE, false, role) == Decision(Proceed, false)
    ensures Decide(PUBLIC_LOGIN_PAGE, true, role) == Decision(RedirectTo(LANDING), false)
  {
    assert StartsWith(LOGIN, "/auth");
    assert forall i :: 0 <= i < |PUBLIC_LOGIN_PAGE.matched| ==> PUBLIC_LOGIN_PAGE.matched[i].requiresAuth == Some(false);
  }
}

=== FILE: seqs.dfy ===
/** Facts about sequences used by several parts of the model. */
module Seqs {

  /** No element occurs twice. */
  predicate NoDuplicates<T(==)>(s: seq<T>)
  {
    forall i, j :: 0 <= i < j < |s| ==> s[i] != s[j]
  }

  /** `r` is `s` with some elements dropped and the rest in their order. */
  predicate IsSubsequence<T(==)>(r: seq<T>, s: seq<T>)
    decreases |s|
  {
    if r == [] then true
    else if s == [] then false
    else (r[0] == s[0] && IsSubsequence(r[1..], s[1..])) || IsSubsequence(r, s[1..])
  }

  /** Every sequence is a subsequence of itself. */
  lemma {:induction false} SubsequenceReflexive<T>(s: seq<T>)
    ensures IsSubsequence(s, s)
    decreases |s|
  {
    if s != [] {
      SubsequenceReflexive(s[1..]);
    }
  }

  /** A sequence with a first element has no duplicates exactly when its
      tail has none and does not contain the first element. */
  lemma NoDuplicatesCons<T>(a: T, t: seq<T>)
    ensures NoDuplicates([a] + t) <==> a !in t && NoDuplicates(t)
  {
    var s := [a] + t;
    assert forall i :: 0 <= i < |t| ==> s[i + 1] == t[i];
    if a !in t && NoDuplicates(t) {
      forall i, j | 0 <= i < j < |s|
        ensures s[i] != s[j]
      {
        if i > 0 {
          assert s[i] == t[i - 1] && s[j] == t[j - 1];
        } else {
          assert s[j] == t[j - 1];
        }
      }
    }
    if NoDuplicates(s) {
      forall i, j | 0 <= i < j < |t|
        ensures t[i] != t[j]
      {
        assert s[i + 1] != s[j + 1];
      }
      forall k | 0 <= k < |t|
        ensures t[k] != a
      {
        assert s[0] != s[k + 1];
      }
    }
  }

  /** `s` with every occurrence of `x` removed, in order. */
  function Without<T(==,!new)>(s: seq<T>, x: T): (r: seq<T>)
    ensures forall y :: y in r <==> y in s && y != x
    ensures x !in s ==> r == s
    ensures NoDuplicates(s) ==> NoDuplicates(r)
    ensures IsSubsequence(r, s)
    ensures |r| <= |s|
  {
    if s == [] then []
    else if s[0] == x then
      var rest := Without(s[1..], x);
      rest
    else
      var rest := Without(s[1..], x);
      assert s == [s[0]] + s[1..];
      assert ([s[0]] + rest)[1..] == rest;
      NoDuplicatesCons(s[0], s[1..]);
      NoDuplicatesCons(s[0], rest);
      [s[0]] + rest
  }
}

=== FILE: storage.dfy ===
/** The browser's `localStorage`: one string-to-string map shared by the
    route cache, the call counter, the session store, the theme and the API
    client. */
module Storage {
  import opened Values

  class LocalStorage {
    var items: map<string, string>

    constructor (initial: map<string, string>)
      ensures items == initial
    {
      items := initial;
    }

    /** `getItem(key)`: the stored string, or `null` when the key is absent. */
    function GetItem(key: string): (r: Option<string>)
      reads this
      ensures r.Some? <==> key in items
      ensures r.Some? ==> r.value == items[key]
    {
      if key in items then Some(items[key]) else None
    }

    /** `setItem(key, value)`. */
    method SetItem(key: string, value: string)
      modifies this
      ensures items == old(items)[key := value]
    {
      items := items[key := value];
    }

    /** `removeItem(key)`. */
    method RemoveItem(key: string)
      modifies this
      ensures items == old(items) - {key}
    {
      items := items - {key};
    }
  }
}

=== FILE: text.dfy ===
/** The string machinery of the JavaScript runtime that the application relies
    on: number formatting (`toFixed`, `toString`), `parseInt`, `join`/`split`,
    `startsWith`/`includes`, white space as `trim` and the regular expression
    class `\s` see it, and upper/lower case mapping. */
module Text {
  import opened Values

  // ---------------------------------------------------------------------
  // Digits and positional notation

  predicate IsDigit(c: char) { '0' <= c <= '9' }

  predicate IsHexDigit(c: char) { IsDigit(c) || 'a' <= c <= 'f' || 'A' <= c <= 'F' }

  /** The value of `c` as a digit in base `radix` (10 or 16), if it is one. */
  function DigitIn(c: char, radix: nat): Option<nat>
  {
    if IsDigit(c) then Some(c as nat - '0' as nat)
    else if radix == 16 && 'a' <= c <= 'f' then Some(c as nat - 'a' as nat + 10)
    else if radix == 16 && 'A' <= c <= 'F' then Some(c as nat - 'A' as nat + 10)
    else None
  }

  predicate AllDigitsIn(s: string, radix: nat)
  {
    forall i :: 0 <= i < |s| ==> DigitIn(s[i], radix).Some?
  }

  /** The number that the digit string `s` denotes in base `radix`. */
  function DigitsValue(s: string, radix: nat): nat
    requires AllDigitsIn(s, radix)
  {
    if s == [] then 0
    else DigitsValue(s[..|s| - 1], radix) * radix + DigitIn(s[|s| - 1], radix).value
  }

  lemma DigitsValueAppend(s: string, c: char, radix: nat)
    requires AllDigitsIn(s, radix) && DigitIn(c, radix).Some?
    ensures AllDigitsIn(s + [c], radix)
    ensures DigitsValue(s + [c], radix) == DigitsValue(s, radix) * radix + DigitIn(c, radix).value
  {
    assert (s + [c])[..|s|] == s;
  }

  function DigitChar(d: nat): (c: char)
    requires d < 10
    ensures IsDigit(c) && DigitIn(c, 10) == Some(d) && DigitIn(c, 16) == Some(d)
  {
    (d + '0' as nat) as char
  }

  function Pow10(k: nat): (p: nat)
    ensures p >= 1
  {
    if k == 0 then 1 else 10 * Pow10(k - 1)
  }

  /** `n.toString()` for a natural number: its decimal digits, without
      leading zeros. */
  function NatToDecimal(n: nat): (s: string)
    ensures s != [] && AllDigitsIn(s, 10) && (forall i :: 0 <= i < |s| ==> IsDigit(s[i]))
    ensures n > 0 ==> s[0] != '0'
  {
    if n < 10 then [DigitChar(n)] else NatToDecimal(n / 10) + [DigitChar(n % 10)]
  }

  lemma {:induction false} NatToDecimalValue(n: nat)
    ensures DigitsValue(NatToDecimal(n), 10) == n
  {
    if n >= 10 {
      NatToDecimalValue(n / 10);
      DigitsValueAppend(NatToDecimal(n / 10), DigitChar(n % 10), 10);
    }
  }

  /** The lowest `width` decimal digits of `n`, zero-padded on the left. */
  function PadDigits(n: nat, width: nat): (s: string)
    ensures |s| == width && AllDigitsIn(s, 10) && (forall i :: 0 <= i < |s| ==> IsDigit(s[i]))
  {
    if width == 0 then [] else PadDigits(n / 10, width - 1) + [DigitChar(n % 10)]
  }

  lemma {:induction false} PadDigitsValue(n: nat, width: nat)
    requires n < Pow10(width)
    ensures DigitsValue(PadDigits(n, width), 10) == n
  {
    if width > 0 {
      assert n / 10 < Pow10(width - 1);
      PadDigitsValue(n / 10, width - 1);
      DigitsValueAppend(PadDigits(n / 10, width - 1), DigitChar(n % 10), 10);
    }
  }

  /** `n.toString()` for an integer. */
  function IntToString(n: int): (s: string)
    ensures s != []
  {
    if n < 0 then "-" + NatToDecimal(-n) else NatToDecimal(n)
  }

  // ---------------------------------------------------------------------
  // White space

  /** The code points that `String.prototype.trim` and the regular expression
      class `\s` treat as white space (WhiteSpace and LineTerminator). */
  predicate IsSpace(c: char)
  {
    || c == '\t' || c == '\n' || c == '\U{000B}' || c == '\U{000C}' || c == '\r'
    || c == ' ' || c == '\U{00A0}' || c == '\U{1680}'
    || ('\U{2000}' <= c <= '\U{200A}')
    || c == '\U{2028}' || c == '\U{2029}' || c == '\U{202F}' || c == '\U{205F}'
    || c == '\U{3000}' || c == '\U{FEFF}'
  }

  /** `s` without its leading white space. */
  function TrimStart(s: string): (r: string)
    ensures |r| <= |s| && r == s[|s| - |r|..]
    ensures r == [] || !IsSpace(r[0])
    ensures forall i :: 0 <= i < |s| - |r| ==> IsSpace(s[i])
  {
    if s != [] && IsSpace(s[0]) then TrimStart(s[1..]) else s
  }

  /** `s` without its trailing white space. */
  function TrimEnd(s: string): (r: string)
    ensures |r| <= |s| && r == s[..|r|]
    ensures r == [] || !IsSpace(r[|r| - 1])
    ensures forall i :: |r| <= i < |s| ==> IsSpace(s[i])
  {
    if s != [] && IsSpace(s[|s| - 1]) then TrimEnd(s[..|s| - 1]) else s
  }

  /** `s.trim()`. */
  function Trim(s: string): string
  {
    TrimEnd(TrimStart(s))
  }

  // ---------------------------------------------------------------------
  // parseInt

  /** The longest prefix of `s` made of digits in base `radix`. */
  function DigitPrefix(s: string, radix: nat): (p: string)
    ensures |p| <= |s| && p == s[..|p|] && AllDigitsIn(p, radix)
    ensures |p| < |s| ==> DigitIn(s[|p|], radix).None?
  {
    if s != [] && DigitIn(s[0], radix).Some? then [s[0]] + DigitPrefix(s[1..], radix) else []
  }

  /** `parseInt(s)` (when `hexRadix` is false) or `parseInt(s, 16)` (when it is
      true); `None` stands for `NaN`. Leading white space and one sign are
      skipped, then the rest is read by `ParseUnsigned`. */
  function ParseInt(s: string, hexRadix: bool): (r: Option<int>)
  {
    var t := TrimStart(s);
    var u := if t != [] && (t[0] == '-' || t[0] == '+') then t[1..] else t;
    match ParseUnsigned(u, hexRadix)
    case None => None
    case Some(v) => if t != [] && t[0] == '-' then Some(0 - v) else Some(v)
  }

  /** The unsigned part of `parseInt`: a `0x`/`0X` prefix switches to base 16,
      and the longest run of digits that follows is read. */
  function ParseUnsigned(u: string, hexRadix: bool): (r: Option<nat>)
  {
    var prefixed := |u| >= 2 && u[0] == '0' && (u[1] == 'x' || u[1] == 'X');
    var v := if prefixed then u[2..] else u;
    var radix := if prefixed || hexRadix then 16 else 10;
    var digits := DigitPrefix(v, radix);
    if digits == [] then None else Some(DigitsValue(digits, radix))
  }

  lemma DigitPrefixOfDigits(s: string, radix: nat)
    requires AllDigitsIn(s, radix)
    ensures DigitPrefix(s, radix) == s
  {
  }

  lemma {:induction false} ParseUnsignedDecimal(m: nat)
    ensures ParseUnsigned(NatToDecimal(m), false) == Some(m)
  {
    var d := NatToDecimal(m);
    NatToDecimalValue(m);
    DigitPrefixOfDigits(d, 10);
    assert !(|d| >= 2 && d[0] == '0');
  }

  /** `parseInt` reads back what `toString` wrote. */
  lemma {:induction false} ParseIntToString(n: int)
    ensures ParseInt(IntToString(n), false) == Some(n)
  {
    var m: nat := if n < 0 then -n else n;
    var s := IntToString(n);
    ParseUnsignedDecimal(m);
    IntToStringUntrimmed(n);
    if n < 0 {
      assert s[0] == '-' && s[1..] == NatToDecimal(m);
    } else {
      assert s == NatToDecimal(m);
      assert IsDigit(s[0]);
    }
  }

  /** `toString` writes no leading white space. */
  lemma IntToStringUntrimmed(n: int)
    ensures TrimStart(IntToString(n)) == IntToString(n)
  {
    var s := IntToString(n);
    if n >= 0 {
      assert IsDigit(NatToDecimal(n)[0]);
    }
    assert !IsSpace(s[0]);
  }

  // ---------------------------------------------------------------------
  // join, split, startsWith, includes

  /** `parts.join(sep)`. */
  function Join(parts: seq<string>, sep: char): string
  {
    if |parts| == 0 then ""
    else if |parts| == 1 then parts[0]
    else parts[0] + [sep] + Join(parts[1..], sep)
  }

  function IndexOf(s: string, c: char): (i: nat)
    requires c in s
    ensures i < |s| && s[i] == c && c !in s[..i]
  {
    if s[0] == c then 0 else 1 + IndexOf(s[1..], c)
  }

  /** `s.split(sep)` for a one-character separator. */
  function Split(s: string, sep: char): seq<string>
    decreases |s|
  {
    if sep !in s then [s]
    else
      var i := IndexOf(s, sep);
      [s[..i]] + Split(s[i + 1..], sep)
  }

  lemma {:induction false} IndexOfAfter(a: string, sep: char, rest: string)
    requires sep !in a
    ensures sep in a + [sep] + rest && IndexOf(a + [sep] + rest, sep) == |a|
  {
    var s := a + [sep] + rest;
    if a != [] {
      assert s[1..] == a[1..] + [sep] + rest;
      IndexOfAfter(a[1..], sep, rest);
    }
  }

  /** Splitting a join at its separator gives back the parts, provided that no
      part contains the separator. */
  lemma {:induction false} SplitJoin(parts: seq<string>, sep: char)
    requires |parts| >= 1
    requires forall i :: 0 <= i < |parts| ==> sep !in parts[i]
    ensures Split(Join(parts, sep), sep) == parts
  {
    if |parts| > 1 {
      var s := Join(parts, sep);
      var rest := Join(parts[1..], sep);
      assert s == parts[0] + [sep] + rest;
      IndexOfAfter(parts[0], sep, rest);
      assert s[..|parts[0]|] == parts[0];
      assert s[|parts[0]| + 1..] == rest;
      SplitJoin(parts[1..], sep);
      assert [parts[0]] + parts[1..] == parts;
    }
  }

  lemma {:induction false} JoinFirst(parts: seq<string>, sep: char)
    requires |parts| >= 1
    ensures |Join(parts, sep)| >= |parts[0]|
  {
  }

  /** Joining is injective on lists of non-empty parts free of the separator. */
  lemma {:induction false} JoinInjective(xs: seq<string>, ys: seq<string>, sep: char)
    requires forall i :: 0 <= i < |xs| ==> xs[i] != "" && sep !in xs[i]
    requires forall i :: 0 <= i < |ys| ==> ys[i] != "" && sep !in ys[i]
    requires Join(xs, sep) == Join(ys, sep)
    ensures xs == ys
  {
    if |xs| >= 1 && |ys| >= 1 {
      SplitJoin(xs, sep);
      SplitJoin(ys, sep);
    } else if |xs| >= 1 {
      JoinFirst(xs, sep);
    } else if |ys| >= 1 {
      JoinFirst(ys, sep);
    }
  }

  predicate StartsWith(s: string, prefix: string)
  {
    |prefix| <= |s| && s[..|prefix|] == prefix
  }

  /** `s.includes(sub)`. */
  predicate Contains(s: string, sub: string)
    decreases |s|
  {
    StartsWith(s, sub) || (s != [] && Contains(s[1..], sub))
  }

  // ---------------------------------------------------------------------
  // Case mapping

  /** `c.toLowerCase()` for Basic Latin and Latin-1; other code points are
      left as they are. */
  function LowerChar(c: char): char
  {
    if 'A' <= c <= 'Z' || ('\U{00C0}' <= c <= '\U{00DE}' && c != '\U{00D7}')
    then (c as int + 32) as char
    else c
  }

  /** `s.toLowerCase()`. */
  function ToLower(s: string): (r: string)
    ensures |r| == |s| && forall i :: 0 <= i < |s| ==> r[i] == LowerChar(s[i])
  {
    if s == [] then [] else [LowerChar(s[0])] + ToLower(s[1..])
  }

  /** `c.toUpperCase()` for Basic Latin, Latin-1 and the code points whose
      upper-case form contains a letter A-Z: the dotless i, the long s, the
      sharp s, the letters U+0149, U+01F0 and U+1E96..U+1E9A whose upper case
      is a letter and a mark, and the Latin ligatures U+FB00..U+FB06. */
  function UpperChar(c: char): string
  {
    if 'a' <= c <= 'z' || ('\U{00E0}' <= c <= '\U{00FE}' && c != '\U{00F7}') then [(c as int - 32) as char]
    else if c == '\U{00FF}' then ['\U{0178}']
    else if c == '\U{00B5}' then ['\U{039C}']
    else if c == '\U{00DF}' then "SS"
    else if c == '\U{0131}' then "I"
    else if c == '\U{017F}' then "S"
    else if c == '\U{0149}' then ['\U{02BC}', 'N']
    else if c == '\U{01F0}' then ['J', '\U{030C}']
    else if c == '\U{1E96}' then ['H', '\U{0331}']
    else if c == '\U{1E97}' then ['T', '\U{0308}']
    else if c == '\U{1E98}' then ['W', '\U{030A}']
    else if c == '\U{1E99}' then ['Y', '\U{030A}']
    else if c == '\U{1E9A}' then ['A', '\U{02BE}']
    else if c == '\U{FB00}' then "FF"
    else if c == '\U{FB01}' then "FI"
    else if c == '\U{FB02}' then "FL"
    else if c == '\U{FB03}' then "FFI"
    else if c == '\U{FB04}' then "FFL"
    else if c == '\U{FB05}' || c == '\U{FB06}' then "ST"
    else [c]
  }

  /** `s.toUpperCase()`. */
  function ToUpper(s: string): string
  {
    if s == [] then [] else UpperChar(s[0]) + ToUpper(s[1..])
  }
}

=== FILE: use_auth.dfy ===
/** The `useAuth` composable (src/composables/useAuth.ts): role checks over
    the session store, and the `login`/`logout` flows that add the user-facing
    notices and the navigation after the store's actions. */
module UseAuth {
  import opened Values
  import opened AuthStore

  /** `hasRole(role)`: the current role is exactly `role`. */
  function HasRole(store: Store, role: string): (r: bool)
    reads store
    ensures r ==> store.user.Some? && role != ""
    ensures r <==> store.user.Some? && store.user.value.role == Some(role) && role != ""
  {
    store.UserRole() == Some(role)
  }

  /** `hasAnyRole(roles)`: the current role is one of `roles`. */
  function HasAnyRole(store: Store, roles: seq<string>): (r: bool)
    reads store
    ensures r <==> exists i :: 0 <= i < |roles| && HasRole(store, roles[i])
  {
    store.UserRole().Some? && store.UserRole().value in roles
  }

  /** `canAccess(requiredRoles)`. */
  function CanAccess(store: Store, requiredRoles: Option<seq<string>>): (r: bool)
    reads store
    ensures r ==> store.IsAuthenticated()
    ensures store.IsAuthenticated() && (requiredRoles.None? || requiredRoles.value == []) ==> r
  {
    if !store.IsAuthenticated() then false
    else if requiredRoles.None? || |requiredRoles.value| == 0 then true
    else HasAnyRole(store, requiredRoles.value)
  }

  /** Access is granted exactly to an authenticated user who either faces
      no role requirement or holds one of the required roles. */
  lemma CanAccessIff(store: Store, requiredRoles: Option<seq<string>>)
    ensures CanAccess(store, requiredRoles) <==>
      && store.IsAuthenticated()
      && (requiredRoles.Some? && |requiredRoles.value| > 0 ==>
            exists i :: 0 <= i < |requiredRoles.value| && HasRole(store, requiredRoles.value[i]))
  {
    if store.IsAuthenticated() && requiredRoles.Some? && |requiredRoles.value| > 0 && HasAnyRole(store, requiredRoles.value) {
      var i :| 0 <= i < |requiredRoles.value| && requiredRoles.value[i] == store.UserRole().value;
      assert HasRole(store, requiredRoles.value[i]);
    }
  }

  /** A user without a role (or with an empty one) holds none of the roles. */
  lemma NoRoleHasNoRoles(store: Store, roles: seq<string>)
    requires store.user.None? || store.user.value.role.None? || store.user.value.role == Some("")
    ensures !HasAnyRole(store, roles)
    ensures forall r :: !HasRole(store, r)
  {
  }

  /** A notice shown through `Notify.create`. */
  datatype Notice = Notice(kind: string, message: string)

  /** An error the composable's `login` rethrows: the store's API error, or
      the `TypeError` raised by reading `name` of a missing user. */
  datatype LoginError = Api(error: ApiError) | MissingUser

  const DEFAULT_LOGIN_ERROR := "Erro ao fazer login"

  /** The message of the failure notice: the server's message when it is
      truthy, else the default. */
  function FailureMessage(e: LoginError): (m: string)
    ensures m != ""
    ensures e.Api? && TruthyText(e.error.message) ==> m == e.error.message.value
    ensures e.MissingUser? || !TruthyText(e.error.message) ==> m == DEFAULT_LOGIN_ERROR
  {
    if e.Api? && e.error.message.Some? && e.error.message.value != "" then e.error.message.value
    else DEFAULT_LOGIN_ERROR
  }

  /** `login(credentials)`: runs the store's login; on success greets the
      user by name and navigates to the `redirect` query parameter when it is
      truthy, else to the landing page; on any failure shows the failure
      notice, does not navigate and rethrows the error. */
  method Login(store: Store, call: Call<LoginData>, redirectQuery: Option<string>)
    returns (r: Result<User, LoginError>, notice: Notice, pushed: Option<string>)
    modifies store, store.storage
    ensures r.Success? <==> call.Resolves? && call.data.user.Some?
    ensures r.Success? ==>
      && r.value == call.data.user.value
      && notice == Notice("positive", "Bem-vindo, " + r.value.name + "!")
      && pushed == Some(if TruthyText(redirectQuery) then redirectQuery.value else "/dashboard")
    ensures r.Failure? ==> notice == Notice("negative", FailureMessage(r.error)) && pushed == None
    ensures call.Rejects? ==> r == Failure(Api(call.error)) && store.Cleared()
    ensures call.Resolves? && call.data.user.None? ==>
      r == Failure(MissingUser) && notice == Notice("negative", DEFAULT_LOGIN_ERROR)
    ensures call.Resolves? ==> store.token == Some(call.data.token) && store.user == call.data.user
    ensures store.Synced() && !store.loading
  {
    var res, _ := store.Login(call);
    match res {
      case Success(user) =>
        if user.None? {
          r := Failure(MissingUser);
          notice := Notice("negative", FailureMessage(r.error));
          pushed := None;
        } else {
          notice := Notice("positive", "Bem-vindo, " + user.value.name + "!");
          pushed := Some(if redirectQuery.Some? && redirectQuery.value != "" then redirectQuery.value else "/dashboard");
          r := Success(user.value);
        }
      case Failure(e) =>
        r := Failure(Api(e));
        notice := Notice("negative", FailureMessage(r.error));
        pushed := None;
    }
  }

  /** `logout()`: the store's logout (which never throws), then the info
      notice and navigation to the login page. */
  method Logout(store: Store, call: Call<()>) returns (notice: Notice, pushed: string)
    modifies store`user, store`token, store.storage
    ensures notice == Notice("info", "Logout realizado com sucesso") && pushed == "/auth/login"
    ensures store.Cleared() && store.Synced() && !CanAccess(store, None)
    ensures store.storage.items == old(store.storage.items) - {TOKEN_KEY}
  {
    var _ := store.Logout(call);
    notice := Notice("info", "Logout realizado com sucesso");
    pushed := "/auth/login";
  }
}

=== FILE: use_theme.dfy ===
/** The `useTheme` composable (src/composables/useTheme.js): the light and
    dark palettes, the colour helpers, and the module-wide theme state
    (`isDarkMode`, `isInitialized`) with the actions that change it and
    persist the choice under `vbuz-theme`. */
module UseTheme {
  import opened Values
  import opened Text
  import opened Storage
  import PermissionUtils

  const THEME_KEY := "vbuz-theme"
  const FALLBACK_COLOR := "#000000"
  /** The text colours of the two palettes. */
  const LIGHT_TEXT := "#0c0f0a"
  const DARK_TEXT := "#ffffff"

  /** The light palette, by colour name. */
  const LIGHT: map<string, string> := map[
    "primary" := "#ff6300", "secondary" := "#ffa100", "tertiary" := "#f4d508", "alternate" := "#f2ef12",
    "primaryText" := "#0c0f0a", "secondaryText" := "#575757",
    "primaryBackground" := "#fffdf6", "secondaryBackground" := "#ffffff",
    "accent1" := "#f27c34", "accent2" := "#ff4f78", "accent3" := "#f9b42f", "accent4" := "#e8eec3",
    "positive" := "#28a745", "negative" := "#d32f2f", "warning" := "#ff9a25", "info" := "#1976d2",
    "orangePantone" := "#ff6300", "night" := "#0c0f0a", "orangePeel" := "#ffa100",
    "schoolBusYellow" := "#f4d508", "aureolin" := "#f2ef12"]

  /** The dark palette, by colour name. */
  const DARK: map<string, string> := map[
    "primary" := "#ff6300", "secondary" := "#ffa100", "tertiary" := "#f4d508", "alternate" := "#f2ef12",
    "primaryText" := "#ffffff", "secondaryText" := "#d9d9d9",
    "primaryBackground" := "#0c0f0a", "secondaryBackground" := "#1a1a1a",
    "accent1" := "#ff8540", "accent2" := "#ffd47d", "accent3" := "#f5b42f", "accent4" := "#706c42",
    "positive" := "#00b853", "negative" := "#d53500", "warning" := "#ffb300", "info" := "#64b5f6",
    "orangePantone" := "#ff6300", "night" := "#0c0f0a", "orangePeel" := "#ffa100",
    "schoolBusYellow" := "#f4d508", "aureolin" := "#f2ef12"]

  /** The palette of a mode: the dark one exactly in dark mode. */
  function Palette(dark: bool): (p: map<string, string>)
    ensures p == DARK <==> dark
    ensures !dark ==> p == LIGHT
    ensures "primaryText" in p
  {
    assert LIGHT["primaryText"] != DARK["primaryText"];
    if dark then DARK else LIGHT
  }

  /** Every colour of both palettes is a `#rrggbb` colour. */
  lemma PalettesAreValid(dark: bool, name: string)
    requires name in Palette(dark)
    ensures PermissionUtils.IsValidColor(Palette(dark)[name])
  {
    if dark {
      DarkPaletteIsValid(name);
    } else {
      LightPaletteIsValid(name);
    }
  }

  lemma LightPaletteIsValid(name: string)
    requires name in LIGHT
    ensures PermissionUtils.IsValidColor(LIGHT[name])
  {
  }

  lemma DarkPaletteIsValid(name: string)
    requires name in DARK
    ensures PermissionUtils.IsValidColor(DARK[name])
  {
  }

  /** `getCSSColor(name)`: a reference to Quasar's custom property. */
  function GetCSSColor(name: string): (css: string)
    ensures StartsWith(css, "var(--q-") && css[|css| - 1] == ')'
    ensures css[8..|css| - 1] == name
  {
    "var(--q-" + name + ")"
  }

  /** `s.replace(c, '')` for a one-character pattern: the first occurrence
      of `c` is removed. */
  function RemoveFirst(s: string, c: char): (r: string)
    ensures c !in s ==> r == s
    ensures c in s ==> |r| == |s| - 1
    ensures s != [] && s[0] == c ==> r == s[1..]
    ensures c in s ==> exists k :: 0 <= k < |s| && s[k] == c && c !in s[..k] && r == s[..k] + s[k + 1..]
  {
    if s == [] then []
    else if s[0] == c then s[1..]
    else
      var rest := RemoveFirst(s[1..], c);
      RemovedPastHead(s, c, rest);
      [s[0]] + rest
  }

  /** The occurrence removed from the tail, seen from the whole string. */
  lemma RemovedPastHead(s: string, c: char, rest: string)
    requires s != [] && s[0] != c
    requires c in s[1..] ==>
      exists k :: 0 <= k < |s[1..]| && s[1..][k] == c && c !in s[1..][..k] && rest == s[1..][..k] + s[1..][k + 1..]
    ensures c in s ==>
      exists k :: 0 <= k < |s| && s[k] == c && c !in s[..k] && [s[0]] + rest == s[..k] + s[k + 1..]
  {
    if c in s {
      var t := s[1..];
      assert c in t;
      var k :| 0 <= k < |t| && t[k] == c && c !in t[..k] && rest == t[..k] + t[k + 1..];
      var j := k + 1;
      assert s[..j] == [s[0]] + t[..k];
      assert s[j + 1..] == t[k + 1..];
      assert 0 <= j < |s| && s[j] == c && c !in s[..j] && [s[0]] + rest == s[..j] + s[j + 1..];
    }
  }

  /** `s.substr(start, length)` for non-negative arguments. */
  function Substr(s: string, start: nat, length: nat): (r: string)
    ensures start >= |s| ==> r == []
    ensures start < |s| ==> |r| == if start + length <= |s| then length else |s| - start
    ensures forall i :: 0 <= i < |r| ==> r[i] == s[start + i]
  {
    if start >= |s| then []
    else if start + length <= |s| then s[start..start + length]
    else s[start..]
  }

  /** `((r * 299) + (g * 587) + (b * 114)) / 1000`. The operands are small
      integers, so the double division is exact enough to compare with 155
      as a real division does. */
  function Brightness(r: int, g: int, b: int): real
  {
    (r * 299 + g * 587 + b * 114) as real / 1000.0
  }

  /** `isColorLight(color)`: drops the first `#`, reads three two-character
      hexadecimal fields with `parseInt(_, 16)`, and compares the weighted
      brightness with 155; a field that is not a number (`NaN`) makes the
      comparison false. */
  function IsColorLight(color: string): (light: bool)
    ensures |RemoveFirst(color, '#')| <= 4 ==> !light
  {
    var hex := RemoveFirst(color, '#');
    var r := ParseInt(Substr(hex, 0, 2), true);
    var g := ParseInt(Substr(hex, 2, 2), true);
    var b := ParseInt(Substr(hex, 4, 2), true);
    r.Some? && g.Some? && b.Some? && Brightness(r.value, g.value, b.value) > 155.0
  }

  /** The value of two hexadecimal digits. */
  function HexPair(hi: char, lo: char): nat
    requires IsHexDigit(hi) && IsHexDigit(lo)
  {
    DigitIn(hi, 16).value * 16 + DigitIn(lo, 16).value
  }

  /** `parseInt` in base 16 reads two hexadecimal digits as their value. */
  lemma ParseHexPair(hi: char, lo: char)
    requires IsHexDigit(hi) && IsHexDigit(lo)
    ensures ParseInt([hi, lo], true) == Some(HexPair(hi, lo))
  {
    var s := [hi, lo];
    assert TrimStart(s) == s by {
      assert !IsSpace(hi);
    }
    assert s[0] != '-' && s[0] != '+';
    HexPairUnsigned(hi, lo);
  }

  /** Without a sign, two hexadecimal digits are read as their value. */
  lemma HexPairUnsigned(hi: char, lo: char)
    requires IsHexDigit(hi) && IsHexDigit(lo)
    ensures ParseUnsigned([hi, lo], true) == Some(HexPair(hi, lo))
  {
    var s := [hi, lo];
    assert s[1] != 'x' && s[1] != 'X';
    assert AllDigitsIn(s, 16);
    DigitPrefixOfDigits(s, 16);
    assert s[..1] == [hi];
    assert [hi][..0] == [];
    assert DigitsValue([hi], 16) == DigitIn(hi, 16).value;
  }

  /** For a `#rrggbb` colour the brightness test is the integer comparison
      299r + 587g + 114b > 155000. */
  lemma IsColorLightIff(color: string)
    requires PermissionUtils.IsValidColor(color)
    ensures IsColorLight(color) <==>
      299 * HexPair(color[1], color[2]) + 587 * HexPair(color[3], color[4]) + 114 * HexPair(color[5], color[6]) > 155000
  {
    var hex := RemoveFirst(color, '#');
    assert hex == color[1..];
    assert Substr(hex, 0, 2) == [color[1], color[2]];
    assert Substr(hex, 2, 2) == [color[3], color[4]];
    assert Substr(hex, 4, 2) == [color[5], color[6]];
    ParseHexPair(color[1], color[2]);
    ParseHexPair(color[3], color[4]);
    ParseHexPair(color[5], color[6]);
  }

  /** A colour that is not a number in its red field is never light. */
  lemma UnreadableColorIsDark(color: string)
    requires ParseInt(Substr(RemoveFirst(color, '#'), 0, 2), true).None?
    ensures !IsColorLight(color)
  {
  }

  /** The fields of the dark palette's text colour. */
  lemma DarkTextFields()
    ensures PermissionUtils.IsValidColor(DARK_TEXT)
    ensures HexPair(DARK_TEXT[1], DARK_TEXT[2]) == 255
    ensures HexPair(DARK_TEXT[3], DARK_TEXT[4]) == 255
    ensures HexPair(DARK_TEXT[5], DARK_TEXT[6]) == 255
  {
    var c := DARK_TEXT;
    assert c[1] == 'f' && c[2] == 'f' && c[3] == 'f' && c[4] == 'f' && c[5] == 'f' && c[6] == 'f';
    assert HexPair('f', 'f') == 255;
  }

  /** The dark palette's text colour (white) is light. */
  lemma DarkTextIsLight()
    ensures IsColorLight(DARK_TEXT)
  {
    DarkTextFields();
    IsColorLightIff(DARK_TEXT);
  }

  /** The fields of the light palette's text colour. */
  lemma LightTextFields()
    ensures PermissionUtils.IsValidColor(LIGHT_TEXT)
    ensures HexPair(LIGHT_TEXT[1], LIGHT_TEXT[2]) == 12
    ensures HexPair(LIGHT_TEXT[3], LIGHT_TEXT[4]) == 15
    ensures HexPair(LIGHT_TEXT[5], LIGHT_TEXT[6]) == 10
  {
    var c := LIGHT_TEXT;
    assert c[1] == '0' && c[2] == 'c' && c[3] == '0' && c[4] == 'f' && c[5] == '0' && c[6] == 'a';
    assert HexPair('0', 'c') == 12 && HexPair('0', 'f') == 15 && HexPair('0', 'a') == 10;
  }

  /** The light palette's text colour is not light. */
  lemma LightTextIsDark()
    ensures !IsColorLight(LIGHT_TEXT)
  {
    LightTextFields();
    IsColorLightIff(LIGHT_TEXT);
  }

  /** The text colour for a background as intended: dark text on a light
      background, light text on a dark one. */
  function IntendedContrastColor(backgroundColor: string): (c: string)
    ensures c == LIGHT_TEXT || c == DARK_TEXT
  {
    if IsColorLight(backgroundColor) then LIGHT_TEXT else DARK_TEXT
  }

  /** The intended text colour is light exactly when the background is not. */
  lemma IntendedContrastOpposes(backgroundColor: string)
    ensures IsColorLight(IntendedContrastColor(backgroundColor)) <==> !IsColorLight(backgroundColor)
  {
    if IsColorLight(backgroundColor) {
      LightTextIsDark();
    } else {
      DarkTextIsLight();
    }
  }

  /** An event `toggleTheme` dispatches on `window`. */
  datatype ThemeChanged = ThemeChanged(isDark: bool, colors: map<string, string>)

  /** The theme state shared by every component that uses the composable. */
  class Theme {
    var isDarkMode: bool
    var isInitialized: bool
    /** Every value passed to Quasar's `Dark.set`, in order. */
    var darkCalls: seq<bool>
    /** Every `theme-changed` event dispatched, in order. */
    var events: seq<ThemeChanged>
    /** How many system-preference listeners are registered. */
    var listeners: nat
    const storage: LocalStorage

    constructor (storage: LocalStorage)
      ensures this.storage == storage
      ensures !isDarkMode && !isInitialized && darkCalls == [] && events == [] && listeners == 0
    {
      this.storage := storage;
      isDarkMode := false;
      isInitialized := false;
      darkCalls := [];
      events := [];
      listeners := 0;
    }

    /** `currentColors`. */
    function CurrentColors(): (p: map<string, string>)
      reads this
      ensures p == DARK <==> isDarkMode
      ensures !isDarkMode ==> p == LIGHT
    {
      Palette(isDarkMode)
    }

    /** `getThemeColor(name)`: the current palette's colour, or black when
      the name is absent (or its colour empty). */
    function GetThemeColor(name: string): (c: string)
      reads this
      ensures c == FALLBACK_COLOR || c in CurrentColors().Values
      ensures name !in CurrentColors() ==> c == FALLBACK_COLOR
    {
      var p := CurrentColors();
      if name in p && p[name] != "" then p[name] else FALLBACK_COLOR
    }

    /** `getContrastColor(backgroundColor)` as written: both branches give the
      current palette's text colour. */
    function GetContrastColor(backgroundColor: string): (c: string)
      reads this
      ensures c == (if isDarkMode then DARK else LIGHT)["primaryText"]
    {
      var p := CurrentColors();
      if IsColorLight(backgroundColor) then p["primaryText"] else p["primaryText"]
    }

    /** `themeName`. */
    function ThemeName(): (name: string)
      reads this
      ensures name == "dark" <==> isDarkMode
      ensures name == "light" <==> !isDarkMode
    {
      if isDarkMode then "dark" else "light"
    }

    /** The stored preference agrees with the mode. */
    ghost predicate Persisted()
      reads this, storage
    {
      THEME_KEY in storage.items && (storage.items[THEME_KEY] == "dark" <==> isDarkMode)
    }

    /** `initializeTheme()`, given whether a `window` exists, the system
      preference, and whether reading the preference throws: a stored
      value decides the mode (dark exactly for "dark"), else the system
      does; a throw forces light mode and leaves the theme uninitialised. */
    method InitializeTheme(hasWindow: bool, systemDark: bool, throws: bool)
      modifies this`isDarkMode, this`isInitialized, this`darkCalls
      ensures !hasWindow ==>
        isDarkMode == old(isDarkMode) && isInitialized == old(isInitialized) && darkCalls == old(darkCalls)
      ensures hasWindow && throws ==>
        !isDarkMode && isInitialized == old(isInitialized) && darkCalls == old(darkCalls) + [false]
      ensures hasWindow && !throws ==>
        && isDarkMode == (if THEME_KEY in storage.items then storage.items[THEME_KEY] == "dark" else systemDark)
        && isInitialized && darkCalls == old(darkCalls) + [isDarkMode]
      ensures hasWindow && !throws && THEME_KEY in storage.items ==> Persisted()
    {
      if !hasWindow {
        return;
      }
      if throws {
        isDarkMode := false;
        darkCalls := darkCalls + [false];
        return;
      }
      var saved := storage.GetItem(THEME_KEY);
      if saved.Some? {
        isDarkMode := saved.value == "dark";
      } else {
        isDarkMode := systemDark;
      }
      darkCalls := darkCalls + [isDarkMode];
      isInitialized := true;
    }

    /** `toggleTheme()`: flips the mode, applies it, stores "dark" or
      "light" to match, and announces the change when a `window` exists. */
    method ToggleTheme(hasWindow: bool)
      modifies this`isDarkMode, this`darkCalls, this`events, storage
      ensures isDarkMode == !old(isDarkMode)
      ensures darkCalls == old(darkCalls) + [isDarkMode]
      ensures storage.items == old(storage.items)[THEME_KEY := ThemeName()]
      ensures events == old(events) + (if hasWindow then [ThemeChanged(isDarkMode, CurrentColors())] else [])
      ensures Persisted()
    {
      isDarkMode := !isDarkMode;
      darkCalls := darkCalls + [isDarkMode];
      storage.SetItem(THEME_KEY, if isDarkMode then "dark" else "light");
      if hasWindow {
        events := events + [ThemeChanged(isDarkMode, CurrentColors())];
      }
    }

    /** `setTheme(theme)`: dark exactly for "dark"; the argument is stored as
      given. */
    method SetTheme(theme: string)
      modifies this`isDarkMode, this`darkCalls, storage
      ensures isDarkMode <==> theme == "dark"
      ensures darkCalls == old(darkCalls) + [isDarkMode]
      ensures storage.items == old(storage.items)[THEME_KEY := theme]
      ensures Persisted()
    {
      isDarkMode := theme == "dark";
      darkCalls := darkCalls + [isDarkMode];
      storage.SetItem(THEME_KEY, theme);
    }

    /** The listener `watchSystemTheme` registers: follows the system only
      while no truthy preference is stored. */
    method OnSystemChange(matches: bool)
      modifies this`isDarkMode, this`darkCalls
      ensures TruthyText(storage.GetItem(THEME_KEY)) ==>
        isDarkMode == old(isDarkMode) && darkCalls == old(darkCalls)
      ensures !TruthyText(storage.GetItem(THEME_KEY)) ==>
        isDarkMode == matches && darkCalls == old(darkCalls) + [matches]
    {
      var saved := storage.GetItem(THEME_KEY);
      if !(saved.Some? && saved.value != "") {
        isDarkMode := matches;
        darkCalls := darkCalls + [matches];
      }
    }

    /** `watchSystemTheme()`, given whether a `window` exists and whether
      `matchMedia` is missing or throws: registers one listener when a
      `window` exists and the media query can be made; a throw is caught
      and registers nothing. */
    method WatchSystemTheme(hasWindow: bool, mediaThrows: bool)
      modifies this`listeners
      ensures listeners == old(listeners) + (if hasWindow && !mediaThrows then 1 else 0)
    {
      if !hasWindow {
        return;
      }
      if !mediaThrows {
        listeners := listeners + 1;
      }
    }

    /** The composable's `onMounted` hook: initialises and starts watching
      unless the theme is initialised already. `throws` is a throw inside
      `initializeTheme`, `mediaThrows` one of `matchMedia` inside
      `watchSystemTheme`. */
    method Mounted(hasWindow: bool, systemDark: bool, throws: bool, mediaThrows: bool)
      modifies this`isDarkMode, this`isInitialized, this`darkCalls, this`listeners
      ensures old(isInitialized) ==>
        isDarkMode == old(isDarkMode) && isInitialized && darkCalls == old(darkCalls) && listeners == old(listeners)
      ensures !old(isInitialized) ==> listeners == old(listeners) + (if hasWindow && !mediaThrows then 1 else 0)
      ensures !old(isInitialized) && !hasWindow ==>
        isDarkMode == old(isDarkMode) && !isInitialized && darkCalls == old(darkCalls)
      ensures !old(isInitialized) && hasWindow && throws ==>
        !isDarkMode && !isInitialized && darkCalls == old(darkCalls) + [false]
      ensures !old(isInitialized) && hasWindow && !throws ==>
        && isDarkMode == (if THEME_KEY in storage.items then storage.items[THEME_KEY] == "dark" else systemDark)
        && isInitialized && darkCalls == old(darkCalls) + [isDarkMode]
    {
      if !isInitialized {
        InitializeTheme(hasWindow, systemDark, throws);
        WatchSystemTheme(hasWindow, mediaThrows);
      }
    }
  }

  /** A palette name gives that palette's colour (no palette colour is
      empty), and every answer is a `#rrggbb` colour. */
  lemma ThemeColorIsValid(theme: Theme, name: string)
    ensures name in theme.CurrentColors() ==> theme.GetThemeColor(name) == theme.CurrentColors()[name]
    ensures PermissionUtils.IsValidColor(theme.GetThemeColor(name))
  {
    if name in theme.CurrentColors() {
      PalettesAreValid(theme.isDarkMode, name);
    }
  }

  /** The contrast colour as written ignores the background: in dark mode a
      white background gets white text. */
  lemma WhiteOnWhiteInDarkMode(theme: Theme)
    requires theme.isDarkMode
    ensures theme.GetContrastColor(DARK_TEXT) == DARK_TEXT
    ensures IntendedContrastColor(DARK_TEXT) == LIGHT_TEXT
  {
    assert DARK["primaryText"] == DARK_TEXT;
    DarkTextIsLight();
  }

  /** Toggling twice restores the mode and stores the original choice. */
  method ToggleTwice(theme: Theme)
    modifies theme`isDarkMode, theme`darkCalls, theme`events, theme.storage
    ensures theme.isDarkMode == old(theme.isDarkMode) && theme.Persisted()
    ensures theme.storage.items == old(theme.storage.items)[THEME_KEY := theme.ThemeName()]
  {
    theme.ToggleTheme(false);
    theme.ToggleTheme(false);
  }

  /** A chosen mode survives a reload: a new theme state over the same
      storage initialises to it whatever the system prefers. */
  method ChoiceSurvivesReload(theme: Theme, choice: string, systemDark: bool) returns (reloaded: Theme)
    modifies theme`isDarkMode, theme`darkCalls, theme.storage
    ensures fresh(reloaded) && reloaded.storage == theme.storage
    ensures reloaded.isDarkMode == theme.isDarkMode && reloaded.isInitialized
  {
    theme.SetTheme(choice);
    reloaded := new Theme(theme.storage);
    reloaded.InitializeTheme(true, systemDark, false);
  }

  /** An empty stored preference gives light mode at start-up, yet does not
      stop the system listener from switching to dark. */
  method EmptyPreferenceFollowsSystem(theme: Theme)
    requires THEME_KEY in theme.storage.items && theme.storage.items[THEME_KEY] == ""
    modifies theme`isDarkMode, theme`isInitialized, theme`darkCalls
    ensures theme.isDarkMode
  {
    theme.InitializeTheme(true, true, false);
    assert !theme.isDarkMode;
    theme.OnSystemChange(true);
  }
}

=== FILE: values.dfy ===
/** Values shared by every part of the model: optional values, results of
    operations that can throw, and the JSON values that the application stores,
    sends and receives. */
module Values {

  /** `null`/`undefined` (None) or a present value (Some). */
  datatype Option<+T> = None | Some(value: T)

  /** The outcome of a call that either returns a value or throws. */
  datatype Result<+T, +E> = Success(value: T) | Failure(error: E)

  /** A JSON value. Numbers are integers: no operation of the model computes
      with non-integral JSON numbers. */
  datatype Json =
    | JNull
    | JBool(b: bool)
    | JNumber(n: int)
    | JString(s: string)
    | JArray(items: seq<Json>)
    | JObject(fields: map<string, Json>)

  /** JavaScript truthiness of a JSON value: `null`, `false`, `0` and `""`
      are falsy; every array and object is truthy. */
  predicate Truthy(j: Json)
  {
    match j
    case JNull => false
    case JBool(b) => b
    case JNumber(n) => n != 0
    case JString(s) => s != ""
    case JArray(_) => true
    case JObject(_) => true
  }

  /** Truthiness of a string read from storage or a query: `null` and `""` are falsy. */
  predicate TruthyText(s: Option<string>)
  {
    s.Some? && s.value != ""
  }
}
